=== FILE: README.md ===
# Equipment-rental sales rules, modelled in Dafny

This project models the deterministic business rules of the ASP Cranes sales agent
(`packages/agent/sales_service/tools/tools.py`). These are:

- **Line pricing** (`calculate_equipment_pricing`):
  - the ordered rate table and its tier lookup, including the hyphen-token rule;
  - shift and complexity multipliers and operator cost;
  - the delivery fee with its long-haul surcharge;
  - keyword surcharges for special requirements;
  - the tiered volume discount, 18% GST, and the rounded report with its daily average.
- **Project quotes** (`generate_project_quote`): every item is priced with default options, and the rounded line totals are summed. Percentage and flat fees follow, then 8% project tax and a 50/50 deposit and balance.
- **Lead rules**:
  - the capped additive lead score (`_calculate_lead_score`);
  - the three-way priority with its follow-up window (`_determine_priority`);
  - the rental-length priority of a captured lead;
  - the site-visit keyword test of a rental booking.
- **Equipment availability**: the record filter of `check_equipment_availability`.

Money is exact `real` arithmetic. Python's `round(x, 2)` and `round(x, 1)` are modelled as round-half-to-even at two and one decimals (`Rounding.Round2`, `Rounding.Round1`). Python's `str.lower()`, `in` on strings, `any(...)` and `str.split()` are modelled in `Text`. A Python `ZeroDivisionError` becomes a `Failure` value.

Modules, one file each:

- `Wrappers`: `Option` and `Result`.
- `Text`: lowering, substring test, word splitting.
- `Rounding`: `round(x, n)`.
- `Rates`: the rate table and the tier lookup.
- `Pricing`: one priced line.
- `Quote`: a project quote.
- `Leads`: score, priority and site visit.
- `Availability`: the record filter.

Behaviours of the code worth knowing:

- **Lookup fall-through.** A category whose name occurs but none of whose variants matches does not stop the lookup. The scan continues with the next category (`Rates.FirstMatchFrom`).
- **The "ton" token.** The token `ton` of every mobile-crane variant matches any description that contains "ton". So every such mobile-crane description is priced at the 25-ton tier; for example, "50-ton mobile crane" gets the 25-ton rate. The model keeps this (`Rates.TonTokenSelectsFirstMobileCrane`).
- **Unmatched descriptions.** These report the raw input as the match and carry no separate flag.
- **No validation.** Nothing is validated: negative durations and distances go through the arithmetic. A zero duration fails only at the daily-average division.
- **Empty quotes.** An empty equipment list yields a quote with zero equipment cost.
- **Two tax rates.** The project quote taxes at 8%, while single lines tax at 18%.
- **A lost cent.** Deposit and balance are rounded separately from the grand total, so the reported deposit plus balance can miss the reported grand total by one cent. One 25-ton mobile crane for one day with an operator costs 151040.00; its quote reports a grand total of 181066.75 but a deposit and a balance of 90533.38 each (`Quote.ReportedPaymentMissesTotalByACent`).

## Model

| member | source | states |
|---|---|---|
| Rates.FirstMatchFrom | packages/agent/sales_service/tools/tools.py:414-423 | the scan returns the first (category, variant) pair in declaration order whose category name occurs and whose variant name or hyphen token occurs, and it returns none exactly when no pair matches; a category without a matching variant falls through to the next one |
| Rates.FirstVariant | packages/agent/sales_service/tools/tools.py:416-421 | within one category, the first variant whose name or one of its `-` tokens occurs in the lowered text is chosen, and none exactly when no variant matches |
| Rates.ResolveRate | packages/agent/sales_service/tools/tools.py:413-429 | an unmatched description gets daily rate 120000, operator rate 6500 and its own raw text as the match; otherwise the result is the first-declared matching tier, reported as "category (variant)" with that tier's rates |
| Rates.FirstMatchUnique | packages/agent/sales_service/tools/tools.py:414-423 | the first matching tier is unique, so exactly one tier is chosen |
| Rates.TonTokenSelectsFirstMobileCrane | packages/agent/sales_service/tools/tools.py:417 | any description containing both "mobile crane" and "ton" resolves to the 25-ton tier (120000 per day, operator 8000) |
| Rates.HeavierMobileCraneExcludesTon | packages/agent/sales_service/tools/tools.py:417 | a heavier mobile-crane tier can be the first match only when the lowered description does not contain "ton" |
| Rates.FiftyTonMobileCraneGetsTwentyFiveTonRate | packages/agent/sales_service/tools/tools.py:415-421 | "50-ton mobile crane" is priced as "mobile crane (25-ton)" at 120000 per day |
| Rates.UnknownEquipmentGetsDefaultRates | packages/agent/sales_service/tools/tools.py:425-429 | for example, "unobtainium levitator" names no category, so it keeps its raw text as the match and gets the default rates |
| Rates.VariantMatchesIffSomeToken | packages/agent/sales_service/tools/tools.py:417 | a variant matches exactly when one of its `-`-separated tokens occurs in the lowered description; the whole-name test adds nothing, because the first token is a prefix of the name |
| Pricing.ShiftMultiplier | packages/agent/sales_service/tools/tools.py:435-440 | the multiplier is 1.3 exactly for "night shift", 1.5 exactly for "24/7" and 1.0 for everything else (case-insensitive exact lookup), always within [1.0, 1.5] |
| Pricing.ComplexityMultiplier | packages/agent/sales_service/tools/tools.py:457-462 | the multiplier is 1.15 exactly for "complex", 1.3 exactly for "specialized" and 1.0 for everything else, always within [1.0, 1.3] |
| Pricing.DeliveryCost | packages/agent/sales_service/tools/tools.py:450-454 | no charge for a non-positive distance; otherwise at least 15000 and at least 350 per km, exactly 350 per km plus 40000 beyond 160 km, and up to 160 km exactly the larger of 15000 and 350 per km (so at most 56000) |
| Pricing.DeliveryCostMonotone | packages/agent/sales_service/tools/tools.py:450-454 | a longer haul never costs less |
| Pricing.KeywordCostSum | packages/agent/sales_service/tools/tools.py:476-478 | the loop's sum never exceeds the sum of all keyword costs, is 0 when no keyword occurs, and is positive when one occurs |
| Pricing.SpecialCost | packages/agent/sales_service/tools/tools.py:465-478 | the surcharge lies in [0, 264000] and is zero exactly when none of the seven keywords occurs in the lowered text (in particular for the empty text) |
| Pricing.KeywordCostSumAddsOwnCost | packages/agent/sales_service/tools/tools.py:476-478 | a keyword that occurs in one text and not in another, where the two agree on every other keyword, adds exactly its own cost to the sum |
| Pricing.SpecialCostIsKeywordSum | packages/agent/sales_service/tools/tools.py:465-478 | the empty-text shortcut agrees with the keyword loop: the surcharge is always the sum over the keywords that occur in the lowered text |
| Pricing.SpecialCostAddsKeyword | packages/agent/sales_service/tools/tools.py:466-478 | the keywords are night, weekend, crane pad, rigging, assembly, disassembly and permit, and mentioning one more of them raises the surcharge by exactly 40000, 25000, 65000, 32000, 50000, 32000 or 20000 respectively |
| Pricing.SpecialCostDependsOnlyOnKeywords | packages/agent/sales_service/tools/tools.py:476-478 | two texts that mention the same keywords cost the same, however often or wherever the keywords appear |
| Pricing.SpecialCostMonotone | packages/agent/sales_service/tools/tools.py:476-478 | mentioning more keywords never lowers the surcharge |
| Pricing.DisassemblyChargesBothKeywords | packages/agent/sales_service/tools/tools.py:467-478 | "disassembly" also contains "assembly" and is charged 82000 |
| Pricing.VolumeDiscountRate | packages/agent/sales_service/tools/tools.py:481-487 | exactly one tier applies: 15% from 30 days, 10% from 14 to 29, 5% from 7 to 13, none below 7 |
| Pricing.VolumeDiscountRateMonotone | packages/agent/sales_service/tools/tools.py:481-487 | a longer rental never gets a smaller discount rate |
| Pricing.LineArithmetic | packages/agent/sales_service/tools/tools.py:432-497 | equipment cost is daily rate times days times shift times complexity; operator cost is operator rate times days times shift times complexity when an operator is required and 0 otherwise; the discount is daily rate times days times shift times the tier rate; delivery and special costs pass through; subtotal is equipment plus operator plus delivery plus special minus discount, tax is 18% of it, and total is subtotal plus tax |
| Pricing.InputsOf | packages/agent/sales_service/tools/tools.py:432-487 | a request with a non-negative duration yields non-negative rates and fees, multipliers of at least 1 and a discount rate of at most 15% |
| Pricing.SubtotalSplitsIntoDailyAndFixed | packages/agent/sales_service/tools/tools.py:489-494 | the subtotal equals days times a per-day charge plus delivery and special costs, with the discount taken before the complexity multiplier |
| Pricing.LineCostsNonNegative | packages/agent/sales_service/tools/tools.py:481-497 | the discount never exceeds the complexity-adjusted equipment cost, so the subtotal is at least delivery plus special and the total at least the subtotal |
| Pricing.DailyAverageForm | packages/agent/sales_service/tools/tools.py:532 | the daily average is the taxed per-day charge plus the taxed fixed charges spread over the days |
| Pricing.DailyAverageNonIncreasing | packages/agent/sales_service/tools/tools.py:532 | more days and a discount rate at least as high never raise the daily average |
| Pricing.RequestDailyAverageNonIncreasing | packages/agent/sales_service/tools/tools.py:532 | lengthening a request's rental, all else equal, never raises its daily average |
| Pricing.DiscountPercentage | packages/agent/sales_service/tools/tools.py:523 | the percentage is 0 when the complexity-adjusted equipment cost is not positive, and otherwise that percentage of the equipment cost is the discount amount |
| Pricing.DiscountPercentageScaledByComplexity | packages/agent/sales_service/tools/tools.py:523 | the reported discount percentage times the complexity multiplier is the tier rate; it equals the tier rate exactly when the multiplier is 1 or there is no discount |
| Pricing.CalculateEquipmentPricing | packages/agent/sales_service/tools/tools.py:359-536 | fails exactly when the duration is 0; otherwise echoes the shift type, operator flag, delivery distance and the "18.0%" tax rate, and reports the looked-up match, base rate, days and multipliers, the tier's operator rate when an operator is required and 0 otherwise, and every amount (equipment subtotal and total, operator, delivery, special, discount, subtotal, tax, total, daily average) as the cent-rounded exact line cost, with the discount percentage rounded to one decimal |
| Pricing.RoundedTotalWithinOneCent | packages/agent/sales_service/tools/tools.py:528-531 | after rounding, the reported total differs from reported subtotal plus reported tax by at most one cent |
| Pricing.ReportedTotalWithinOneCent | packages/agent/sales_service/tools/tools.py:528-531 | the same one-cent tolerance, read off the report of any request with a non-zero duration |
| Rounding.RoundToInt | packages/agent/sales_service/tools/tools.py:531 | Python's `round` to an integer: within one half of the input, exact on integers, even on ties |
| Rounding.Round2 | packages/agent/sales_service/tools/tools.py:531 | `round(x, 2)` lands on whole cents within half a cent of the input |
| Rounding.Round1 | packages/agent/sales_service/tools/tools.py:523 | `round(x, 1)` lands on whole tenths within 0.05 of the input |
| Rounding.Round2Nearest | packages/agent/sales_service/tools/tools.py:648-661 | an amount less than half a cent from a whole number of cents rounds to that number of cents |
| Rounding.Round2Monotone | packages/agent/sales_service/tools/tools.py:531 | rounding to cents preserves order |
| Rounding.Round2OnCents | packages/agent/sales_service/tools/tools.py:648 | rounding an amount already in whole cents leaves it unchanged |
| Text.IsSubstringIff | packages/agent/sales_service/tools/tools.py:415 | Python's left-to-right `in` test holds exactly when the needle occurs at some position |
| Text.JoinSplit | packages/agent/sales_service/tools/tools.py:417 | joining the `-` split of a variant name with `-` gives the name back |
| Text.Lower | packages/agent/sales_service/tools/tools.py:183-187 | lowering keeps the length, turns each ASCII capital into its small letter (code point plus 32), and leaves every other character as it is |
| Text.LowerHasNoUpper | packages/agent/sales_service/tools/tools.py:183-187 | no ASCII capital is left in a lowered string |
| Text.LowerIdempotent | packages/agent/sales_service/tools/tools.py:183-187 | lowering an already lowered string changes nothing |
| Text.LowerKeepsLowerCase | packages/agent/sales_service/tools/tools.py:183-187 | a string without ASCII capitals is its own lowered form |
| Text.Words | packages/agent/sales_service/tools/tools.py:191 | `split()` yields non-empty words that contain no whitespace |
| Text.WordsJoin | packages/agent/sales_service/tools/tools.py:191 | gluing the words of `split()` back together gives the text with its whitespace removed, so no non-space character is lost |
| Text.WordsAreMaximalRuns | packages/agent/sales_service/tools/tools.py:191 | each word sits in the text at its start position, starts at the beginning or after whitespace, ends at whitespace or the end, and each next word starts after the whitespace that ends the previous one |
| Quote.LineQuoteOf | packages/agent/sales_service/tools/tools.py:580-597 | the row echoes the item's type (else ""), its duration (else the project's) and its operator flag (else false), and its cost is the item's line total rounded to whole cents |
| Quote.PriceItem | packages/agent/sales_service/tools/tools.py:580-597 | an item fails exactly when its effective duration (its own, else the project's) is 0, and otherwise yields its breakdown row |
| Quote.PriceItemAgreesWithPricing | packages/agent/sales_service/tools/tools.py:585-596 | pricing an item fails exactly when line pricing of its default-option request fails, and its row cost is that report's total cost |
| Quote.PriceAll | packages/agent/sales_service/tools/tools.py:579-599 | the loop fails exactly when some item fails and otherwise returns one row per item in input order |
| Quote.ProjectCosts | packages/agent/sales_service/tools/tools.py:601-629 | management fee 8% and insurance 3% of the equipment total, site preparation 1500 exactly for projects over 7 days, permits 2500 exactly when requested, rush 20% exactly for rush orders; subtotal is their sum with the equipment total, tax 8%, and deposit and balance are equal halves adding up to the grand total |
| Quote.RoundCosts | packages/agent/sales_service/tools/tools.py:647-661 | every reported amount is a whole number of cents within half a cent of the exact amount |
| Quote.ReportedPaymentWithinOneCent | packages/agent/sales_service/tools/tools.py:628-629 | the reported deposit plus the reported balance lies within one cent of the reported grand total |
| Quote.ReportedPaymentMissesTotalByACent | packages/agent/sales_service/tools/tools.py:625-661 | for an equipment total of 151040.00 with no extras, the reported grand total is 181066.75 while deposit and balance are 90533.38 each, one cent more in sum |
| Quote.GenerateProjectQuote | packages/agent/sales_service/tools/tools.py:576-677 | fails exactly when some item's effective duration is 0; otherwise the breakdown has one row per item in input order, and the reported amounts are the cent-rounded project costs of the summed row costs |
| Quote.ReportedEquipmentTotalIsSumOfLines | packages/agent/sales_service/tools/tools.py:599-648 | when no item has a zero effective duration the quote succeeds, and because the summed line totals are already whole cents, the reported equipment total equals the sum of the breakdown's costs exactly |
| Quote.EmptyEquipmentListQuote | packages/agent/sales_service/tools/tools.py:576-629 | an empty equipment list is accepted, with zero equipment total and a grand total of 1.08 times the flat fees |
| Quote.RoundedRush | packages/agent/sales_service/tools/tools.py:616-618 | the reported rush surcharge of a rush order is 20% of the equipment total, rounded once |
| Quote.QuoteOrderIndependent | packages/agent/sales_service/tools/tools.py:579-629 | any rearrangement of the equipment list gives the same outcome and the same project amounts |
| Leads.BudgetBonus | packages/agent/sales_service/tools/tools.py:119-124 | 30 exactly when "25000+" occurs, 20 exactly when "10000" occurs but not that, 10 exactly when only "5000" occurs, and 0 exactly when none of the keywords occurs |
| Leads.TimelineBonus | packages/agent/sales_service/tools/tools.py:127-130 | 25 exactly when "week", "asap" or "immediate" occurs, 15 exactly when only "month" occurs, and 0 exactly when none of the keywords occurs |
| Leads.EquipmentBonus | packages/agent/sales_service/tools/tools.py:133-139 | 20 exactly for "tower", "100-ton" or "specialized", 15 exactly for "50-ton" or "mobile" without those, 10 exactly for "25-ton" alone, and 0 exactly when none of the keywords occurs |
| Leads.UrgencyBonus | packages/agent/sales_service/tools/tools.py:142-143 | the table value for an exact lowered key, 10 for any other urgency; always within [5, 25], and 5 exactly for "low" |
| Leads.LeadScore | packages/agent/sales_service/tools/tools.py:113-145 | the score lies in [55, 100]; it is 100 exactly when base plus bonuses reaches 100, and otherwise equals base plus bonuses |
| Leads.DeterminePriority | packages/agent/sales_service/tools/tools.py:148-155 | high exactly when the score is at least 80 or urgency is "emergency"; else medium exactly when the score is at least 60 or urgency is "high"; else normal |
| Leads.DeterminePriorityMonotone | packages/agent/sales_service/tools/tools.py:148-155 | a higher score never gives a lower priority |
| Leads.LeadScoreIgnoresProjectType | packages/agent/sales_service/tools/tools.py:113-145 | the project type does not affect the score |
| Leads.NormalPriorityIff | packages/agent/sales_service/tools/tools.py:113-155 | a scored lead is normal priority exactly when it earns no budget, timeline or equipment bonus and its urgency is "low" |
| Leads.EmergencyIsHighPriority | packages/agent/sales_service/tools/tools.py:142-152 | an emergency lead scores at least 75 and is always high priority |
| Leads.CaptureLeadPriority | packages/agent/sales_service/tools/tools.py:64-65 | a captured lead is high priority exactly when the rental runs more than 5 days, and never medium |
| Leads.CaptureLeadPriorityMonotone | packages/agent/sales_service/tools/tools.py:64 | a longer rental never gives a captured lead a lower priority |
| Leads.CaptureFollowUp | packages/agent/sales_service/tools/tools.py:64-65 | the follow-up window is 2 hours for a long rental and 24 hours otherwise |
| Leads.NeedsSiteVisit | packages/agent/sales_service/tools/tools.py:264-265 | a site visit is needed exactly when "tower", "100-ton", "specialized" or "heavy" occurs in the lowered equipment type |
| Leads.ComplexEquipmentNeedsSiteVisit | packages/agent/sales_service/tools/tools.py:264-265 | equipment in the top scoring tier always needs a site visit |
| Leads.HeavyNeedsSiteVisitWithoutBonus | packages/agent/sales_service/tools/tools.py:264-265 | "heavy" needs a site visit yet earns no equipment bonus, so the converse fails |
| Availability.ListingOf | packages/agent/sales_service/tools/tools.py:194-201 | each listed field is the record's value when present; a missing id, name, type or capacity becomes "", a missing rate 0 and a missing status "Available" |
| Availability.RecordMatches | packages/agent/sales_service/tools/tools.py:189-192 | a record matches exactly when the lowered request, or one of its whitespace-separated words, occurs in the record's lowered name or lowered type |
| Availability.FilterRecords | packages/agent/sales_service/tools/tools.py:184-201 | the listing is no longer than the records, lists only matching records, and lists every matching record |
| Availability.FilterConcat | packages/agent/sales_service/tools/tools.py:184-201 | filtering preserves order: filtering a concatenation concatenates the filtered parts |
| Availability.CheckEquipmentAvailability | packages/agent/sales_service/tools/tools.py:178-222 | success exactly when the database answers; the listing is then the filtered records in order, empty on error, and the option count is the listing's length |
| Availability.EmptyQueryListsAll | packages/agent/sales_service/tools/tools.py:189-192 | an empty requested type lists every record, in order |
| Availability.WordTestSubsumesWholeQuery | packages/agent/sales_service/tools/tools.py:189-192 | once the request has a word, the whole-request test adds nothing: a field matches exactly when one of the words occurs in it |
| Availability.SingleWordQuery | packages/agent/sales_service/tools/tools.py:189-192 | a one-word request matches a field exactly when the field contains it |
| Availability.BlankQuery | packages/agent/sales_service/tools/tools.py:189-192 | a whitespace-only request has no words, so it matches only fields that contain it verbatim |

## Left out

- Ids, clocks and dates are not modelled:
  - `uuid` ids and `datetime.now()`;
  - the `strptime`/`timedelta` date arithmetic of `generate_project_quote` and `schedule_equipment_rental` (tools.py:258-261, 572-573). This includes the `ValueError` of a malformed date and the `OverflowError` raised when `project_duration` is so large or so negative that the `timedelta` or the end date leaves Python's date range; `Quote.GenerateProjectQuote` therefore does not fail for such durations;
  - the mock schedule of `get_equipment_schedule`.
- Logging, the CRM sync and every database call are left out. The availability database is a parameter: `None` stands for the call raising.
- Echo-only report fields are not modelled. These are the customer, project and site text, the payment terms, the validity notes and the next-steps lists.
- `hourly_rate` is carried in the rate table (`Rates.TierRates.hourlyRate`) but never read, as in the code.
- Binary floating point is replaced by exact reals:
  - amounts that Python would compute with rounding error are exact here;
  - `round` is round-half-to-even on the exact value;
  - `NaN` and infinite distances do not exist.
- Text.Lower: lowers ASCII letters only. Python's `str.lower()` also lowers non-ASCII letters, and some of them lower to ASCII: U+212A KELVIN SIGN lowers to 'k'. So "WEE\u212AEND" earns the 25000 weekend surcharge in the code (tools.py:469, 477) but not in the model, and a timeline containing "wee\u212A" earns the 25-point timeline bonus in the code (tools.py:127) but not in the model. On text without non-ASCII capitals the two lowerings agree.
- Python's dynamic typing is not modelled:
  - a record field that is present but `None`, where `.lower()` would raise;
  - a quote item whose values have the wrong types.

  Fields are either present with the declared type or absent.
- Pricing.CalculateEquipmentPricing: does not model the float range. In the code, `base_daily_rate * rental_duration` is a Python int (tools.py:432), and multiplying it by the float shift multiplier (tools.py:441) raises `OverflowError: int too large to convert to float` once the product passes about 1.8e308 (for example `rental_duration = 10**304`). Slightly below that bound the float amounts become `inf`, or `nan` when an infinite cost meets an infinite discount. With exact reals the model instead succeeds with finite amounts for every non-zero duration.
- Quote.PriceItem: an item whose `duration` is that large raises the same `OverflowError` in the code (tools.py:441, via tools.py:585-590); the model prices it as a success.
- Quote.GenerateProjectQuote: for the same reason, a quote with such an item duration raises `OverflowError` in the code, or reports `inf`/`nan` amounts just below the bound, while the model returns a finite quote.
- Quote.RoundedRush: the rush identity is stated on the exact project costs rather than through `Quote.GenerateProjectQuote`, whose contract already equates the reported costs with the rounded project costs of the summed rows.

=== FILE: availability.dfy ===
/**
 * The record filter of `check_equipment_availability`: the equipment
 * records whose name or type contains the requested type, or any word of
 * it, kept in database order and reported with defaults for missing keys.
 */
module Availability {
  import opened Wrappers
  import opened Text

  /** An equipment record as the database returns it; any key may be missing. */
  datatype EquipmentRecord = EquipmentRecord(
    equipmentId: Option<string>,
    equipmentName: Option<string>,
    equipmentType: Option<string>,
    maxCapacity: Option<string>,
    dailyRate: Option<real>,
    status: Option<string>)

  /** One entry of `available_equipment`. */
  datatype Listing = Listing(
    equipmentId: string,
    equipmentName: string,
    equipmentType: string,
    maxCapacity: string,
    dailyRate: real,
    status: string)

  /** The reply of `check_equipment_availability`. */
  datatype AvailabilityReport = AvailabilityReport(
    status: string,
    requestedEquipment: string,
    dateRange: string,
    location: string,
    availableEquipment: seq<Listing>,
    totalOptions: nat)

  /** A record as listed: missing keys become "", 0 and "Available". */
  function ListingOf(r: EquipmentRecord): (l: Listing)
    ensures r.equipmentId.Some? ==> l.equipmentId == r.equipmentId.value
    ensures r.equipmentId.None? ==> l.equipmentId == ""
    ensures r.equipmentName.Some? ==> l.equipmentName == r.equipmentName.value
    ensures r.equipmentName.None? ==> l.equipmentName == ""
    ensures r.equipmentType.Some? ==> l.equipmentType == r.equipmentType.value
    ensures r.equipmentType.None? ==> l.equipmentType == ""
    ensures r.maxCapacity.Some? ==> l.maxCapacity == r.maxCapacity.value
    ensures r.maxCapacity.None? ==> l.maxCapacity == ""
    ensures r.dailyRate.Some? ==> l.dailyRate == r.dailyRate.value
    ensures r.dailyRate.None? ==> l.dailyRate == 0.0
    ensures r.status.Some? ==> l.status == r.status.value
    ensures r.status.None? ==> l.status == "Available"
  {
    Listing(r.equipmentId.GetOr(""), r.equipmentName.GetOr(""), r.equipmentType.GetOr(""),
            r.maxCapacity.GetOr(""), r.dailyRate.GetOr(0.0), r.status.GetOr("Available"))
  }

  /** A lowered query matches a lowered field when the field contains it or any of its words. */
  predicate FieldMatches(query: string, field: string) {
    IsSubstring(query, field) || AnyIn(Words(query), field)
  }

  /** The match test of the filter loop. */
  function RecordMatches(equipmentType: string, r: EquipmentRecord): (b: bool)
    ensures b <==> FieldMatches(Lower(equipmentType), Lower(r.equipmentName.GetOr("")))
                   || FieldMatches(Lower(equipmentType), Lower(r.equipmentType.GetOr("")))
  {
    var query := Lower(equipmentType);
    var name := Lower(r.equipmentName.GetOr(""));
    var kind := Lower(r.equipmentType.GetOr(""));
    var words := Words(query);
    IsSubstring(query, name) || IsSubstring(query, kind) || AnyOccurs(words, name) || AnyOccurs(words, kind)
  }

  /** The listed records: the matching ones, in database order. */
  function FilterRecords(equipmentType: string, records: seq<EquipmentRecord>): (out: seq<Listing>)
    ensures |out| <= |records|
    ensures forall l :: l in out ==> exists r :: r in records && RecordMatches(equipmentType, r) && l == ListingOf(r)
    ensures forall r :: r in records && RecordMatches(equipmentType, r) ==> ListingOf(r) in out
  {
    if |records| == 0 then []
    else
      var rest := FilterRecords(equipmentType, records[1..]);
      assert forall r :: r in records[1..] ==> r in records;
      assert forall r :: r in records ==> r == records[0] || r in records[1..];
      if RecordMatches(equipmentType, records[0]) then [ListingOf(records[0])] + rest else rest
  }

  /** Filtering a concatenation filters each part and keeps them in order. */
  lemma {:induction false} FilterConcat(equipmentType: string, a: seq<EquipmentRecord>, b: seq<EquipmentRecord>)
    ensures FilterRecords(equipmentType, a + b) == FilterRecords(equipmentType, a) + FilterRecords(equipmentType, b)
  {
    if |a| == 0 {
      assert a + b == b;
    } else {
      assert (a + b)[0] == a[0];
      assert (a + b)[1..] == a[1..] + b;
      FilterConcat(equipmentType, a[1..], b);
    }
  }

  /**
   * `check_equipment_availability`; `database` is None when the database call
   * raises. The error reply has no location key, reported here as "".
   */
  method CheckEquipmentAvailability(equipmentType: string, startDate: string, endDate: string, location: string,
                                    database: Option<seq<EquipmentRecord>>)
    returns (report: AvailabilityReport)
    ensures report.status == "success" <==> database.Some?
    ensures report.status == "success" || report.status == "error"
    ensures database.Some? ==> report.availableEquipment == FilterRecords(equipmentType, database.value)
    ensures database.None? ==> report.availableEquipment == []
    ensures report.totalOptions == |report.availableEquipment|
    ensures report.requestedEquipment == equipmentType && report.dateRange == startDate + " to " + endDate
  {
    if database.None? {
      return AvailabilityReport("error", equipmentType, startDate + " to " + endDate, "", [], 0);
    }
    var records := database.value;
    var available: seq<Listing> := [];
    var i := 0;
    while i < |records|
      invariant 0 <= i <= |records|
      invariant available == FilterRecords(equipmentType, records[..i])
    {
      var r := records[i];
      FilterConcat(equipmentType, records[..i], [r]);
      assert records[..i + 1] == records[..i] + [r];
      if RecordMatches(equipmentType, r) {
        available := available + [ListingOf(r)];
      }
      i := i + 1;
    }
    assert records[..i] == records;
    report := AvailabilityReport("success", equipmentType, startDate + " to " + endDate, location,
                                 available, |available|);
  }

  /** An empty requested type lists every record, in order. */
  lemma {:induction false} EmptyQueryListsAll(records: seq<EquipmentRecord>)
    ensures FilterRecords("", records) == seq(|records|, i requires 0 <= i < |records| => ListingOf(records[i]))
  {
    if |records| > 0 {
      EmptyIsSubstring(Lower(records[0].equipmentName.GetOr("")));
      assert RecordMatches("", records[0]);
      EmptyQueryListsAll(records[1..]);
    }
  }

  /** Once the query has a word, the whole-query test adds nothing: a field matches iff one of the words occurs in it. */
  lemma WordTestSubsumesWholeQuery(query: string, field: string)
    requires |Words(query)| > 0
    ensures FieldMatches(query, field) <==> AnyIn(Words(query), field)
  {
    if IsSubstring(query, field) {
      WordsFromAreSubstrings(query, 0);
      SubstringTransitive(Words(query)[0], query, field);
    }
  }

  /** A one-word query matches a field exactly when the field contains it. */
  lemma SingleWordQuery(query: string, field: string)
    requires |query| > 0 && NoSpace(query)
    ensures FieldMatches(query, field) <==> IsSubstring(query, field)
  {
    WordsOfSingleWord(query);
  }

  /** A blank query (only whitespace) has no words, so it matches only fields that contain it verbatim. */
  lemma BlankQuery(query: string, field: string)
    requires forall k :: 0 <= k < |query| ==> IsSpace(query[k])
    ensures FieldMatches(query, field) <==> IsSubstring(query, field)
  {
    WordsOfBlank(query, 0);
  }
}

=== FILE: leads.dfy ===
/**
 * Lead rules: the additive lead score, the three-way priority with its
 * follow-up window, the rental-length priority of captured leads, and the
 * site-visit keyword test of a rental booking.
 */
module Leads {
  import opened Text

  /** A lead's priority, reported with a label and a follow-up window. */
  datatype Priority = High | Medium | Normal {
    function Label(): string {
      match this
      case High => "high"
      case Medium => "medium"
      case Normal => "normal"
    }

    function FollowUp(): string {
      match this
      case High => "2 hours"
      case Medium => "4 hours"
      case Normal => "24 hours"
    }

    /** Position in the order Normal < Medium < High. */
    function Rank(): nat {
      match this
      case High => 2
      case Medium => 1
      case Normal => 0
    }
  }

  const BaseScore: nat := 50
  const MaxScore: nat := 100

  /** Timeline words that earn the "soon" bonus. */
  const SoonWords: seq<string> := ["week", "asap", "immediate"]
  /** Equipment words of the most complex tier. */
  const ComplexEquipmentWords: seq<string> := ["tower", "100-ton", "specialized"]
  /** Equipment words of the middle tier. */
  const MidEquipmentWords: seq<string> := ["50-ton", "mobile"]
  /** Urgency bonuses by lowered urgency; anything else earns 10. */
  const UrgencyScores: map<string, nat> := map["emergency" := 25, "high" := 20, "medium" := 10, "low" := 5]
  const UnknownUrgencyScore: nat := 10

  /** The budget bonus: the first of "25000+", "10000", "5000" found in the lowered budget. */
  function BudgetBonus(budget: string): (b: nat)
    ensures b == 30 <==> IsSubstring("25000+", Lower(budget))
    ensures b == 20 <==> !IsSubstring("25000+", Lower(budget)) && IsSubstring("10000", Lower(budget))
    ensures b == 10 <==> !IsSubstring("25000+", Lower(budget)) && !IsSubstring("10000", Lower(budget))
                         && IsSubstring("5000", Lower(budget))
    ensures b == 0 <==> !IsSubstring("25000+", Lower(budget)) && !IsSubstring("10000", Lower(budget))
                        && !IsSubstring("5000", Lower(budget))
    ensures b in {0, 10, 20, 30}
  {
    var lowered := Lower(budget);
    if IsSubstring("25000+", lowered) then 30
    else if IsSubstring("10000", lowered) then 20
    else if IsSubstring("5000", lowered) then 10
    else 0
  }

  /** The timeline bonus: sooner timelines score higher. */
  function TimelineBonus(timeline: string): (b: nat)
    ensures b == 25 <==> AnyIn(SoonWords, Lower(timeline))
    ensures b == 15 <==> !AnyIn(SoonWords, Lower(timeline)) && IsSubstring("month", Lower(timeline))
    ensures b == 0 <==> !AnyIn(SoonWords, Lower(timeline)) && !IsSubstring("month", Lower(timeline))
    ensures b in {0, 15, 25}
  {
    var lowered := Lower(timeline);
    if AnyOccurs(SoonWords, lowered) then 25
    else if IsSubstring("month", lowered) then 15
    else 0
  }

  /** The equipment-complexity bonus. */
  function EquipmentBonus(equipment: string): (b: nat)
    ensures b == 20 <==> AnyIn(ComplexEquipmentWords, Lower(equipment))
    ensures b == 15 <==> !AnyIn(ComplexEquipmentWords, Lower(equipment)) && AnyIn(MidEquipmentWords, Lower(equipment))
    ensures b == 10 <==> !AnyIn(ComplexEquipmentWords, Lower(equipment)) && !AnyIn(MidEquipmentWords, Lower(equipment))
                         && IsSubstring("25-ton", Lower(equipment))
    ensures b == 0 <==> !AnyIn(ComplexEquipmentWords, Lower(equipment)) && !AnyIn(MidEquipmentWords, Lower(equipment))
                        && !IsSubstring("25-ton", Lower(equipment))
    ensures b in {0, 10, 15, 20}
  {
    var lowered := Lower(equipment);
    if AnyOccurs(ComplexEquipmentWords, lowered) then 20
    else if AnyOccurs(MidEquipmentWords, lowered) then 15
    else if IsSubstring("25-ton", lowered) then 10
    else 0
  }

  /** The urgency bonus: an exact lookup of the lowered urgency, 10 when absent. */
  function UrgencyBonus(urgency: string): (b: nat)
    ensures Lower(urgency) in UrgencyScores ==> b == UrgencyScores[Lower(urgency)]
    ensures Lower(urgency) !in UrgencyScores ==> b == 10
    ensures 5 <= b <= 25
    ensures b == 5 <==> Lower(urgency) == "low"
  {
    var lowered := Lower(urgency);
    if lowered in UrgencyScores then UrgencyScores[lowered] else UnknownUrgencyScore
  }

  /** `_calculate_lead_score`: base 50 plus at most one bonus of each kind, capped at 100. */
  function LeadScore(projectType: string, timeline: string, budget: string, equipment: string, urgency: string)
    : (s: nat)
    ensures 55 <= s <= MaxScore
    ensures s == MaxScore <==>
              BaseScore + BudgetBonus(budget) + TimelineBonus(timeline) + EquipmentBonus(equipment)
              + UrgencyBonus(urgency) >= MaxScore
    ensures s < MaxScore ==>
              s == BaseScore + BudgetBonus(budget) + TimelineBonus(timeline) + EquipmentBonus(equipment)
                   + UrgencyBonus(urgency)
  {
    var score := BaseScore + BudgetBonus(budget) + TimelineBonus(timeline)
                 + EquipmentBonus(equipment) + UrgencyBonus(urgency);
    if score < MaxScore then score else MaxScore
  }

  /** `_determine_priority`: high, else medium, else normal. */
  function DeterminePriority(leadScore: int, urgency: string): (p: Priority)
    ensures p == High <==> leadScore >= 80 || Lower(urgency) == "emergency"
    ensures p == Medium <==> !(leadScore >= 80 || Lower(urgency) == "emergency")
                             && (leadScore >= 60 || Lower(urgency) == "high")
    ensures p == Normal <==> leadScore < 60 && Lower(urgency) != "emergency" && Lower(urgency) != "high"
  {
    var lowered := Lower(urgency);
    if leadScore >= 80 || lowered == "emergency" then High
    else if leadScore >= 60 || lowered == "high" then Medium
    else Normal
  }

  /** A higher score never lowers the priority. */
  lemma DeterminePriorityMonotone(low: int, high: int, urgency: string)
    requires low <= high
    ensures DeterminePriority(low, urgency).Rank() <= DeterminePriority(high, urgency).Rank()
  {
  }

  /** The project type plays no part in the score. */
  lemma LeadScoreIgnoresProjectType(a: string, b: string, timeline: string, budget: string, equipment: string,
                                    urgency: string)
    ensures LeadScore(a, timeline, budget, equipment, urgency) == LeadScore(b, timeline, budget, equipment, urgency)
  {
  }

  /** A scored lead is "normal" exactly when it earns no budget, timeline or equipment bonus and its urgency is "low". */
  lemma NormalPriorityIff(projectType: string, timeline: string, budget: string, equipment: string, urgency: string)
    ensures DeterminePriority(LeadScore(projectType, timeline, budget, equipment, urgency), urgency) == Normal
            <==> BudgetBonus(budget) == 0 && TimelineBonus(timeline) == 0 && EquipmentBonus(equipment) == 0
                 && Lower(urgency) == "low"
  {
    var u := UrgencyBonus(urgency);
    if Lower(urgency) == "emergency" {
      assert u == 25;
    } else if Lower(urgency) == "high" {
      assert u == 20;
    }
  }

  /** An emergency lead is always high priority, whatever it scores. */
  lemma EmergencyIsHighPriority(projectType: string, timeline: string, budget: string, equipment: string,
                                urgency: string)
    requires Lower(urgency) == "emergency"
    ensures DeterminePriority(LeadScore(projectType, timeline, budget, equipment, urgency), urgency) == High
    ensures LeadScore(projectType, timeline, budget, equipment, urgency) >= 75
  {
    assert UrgencyBonus(urgency) == 25;
  }

  /** The priority of a captured lead: high when the rental runs longer than five days. */
  function CaptureLeadPriority(rentalDays: int): (p: Priority)
    ensures p == High <==> rentalDays > 5
    ensures p != Medium
  {
    if rentalDays > 5 then High else Normal
  }

  /** A longer rental never gives a captured lead a lower priority. */
  lemma CaptureLeadPriorityMonotone(shorter: int, longer: int)
    requires shorter <= longer
    ensures CaptureLeadPriority(shorter).Rank() <= CaptureLeadPriority(longer).Rank()
  {
  }

  /** A captured lead is followed up within 2 hours when long, 24 hours otherwise. */
  lemma CaptureFollowUp(rentalDays: int)
    ensures CaptureLeadPriority(rentalDays).FollowUp() == (if rentalDays > 5 then "2 hours" else "24 hours")
    ensures rentalDays <= 5 ==> CaptureLeadPriority(rentalDays).Label() == "normal"
  {
  }

  /** Equipment words that call for a site visit before delivery. */
  const SiteVisitWords: seq<string> := ["tower", "100-ton", "specialized", "heavy"]

  /** The site-visit test of `schedule_equipment_rental`. */
  function NeedsSiteVisit(equipmentType: string): (b: bool)
    ensures b <==> AnyIn(SiteVisitWords, Lower(equipmentType))
  {
    AnyOccurs(SiteVisitWords, Lower(equipmentType))
  }

  /** Equipment in the most complex scoring tier always needs a site visit. */
  lemma ComplexEquipmentNeedsSiteVisit(equipment: string)
    requires EquipmentBonus(equipment) == 20
    ensures NeedsSiteVisit(equipment)
  {
    var i :| 0 <= i < |ComplexEquipmentWords| && IsSubstring(ComplexEquipmentWords[i], Lower(equipment));
    assert SiteVisitWords[i] == ComplexEquipmentWords[i];
  }

  /** "heavy" alone needs a site visit but earns no equipment bonus. */
  lemma HeavyNeedsSiteVisitWithoutBonus()
    ensures NeedsSiteVisit("heavy")
    ensures EquipmentBonus("heavy") == 0
  {
    assert Lower("heavy") == "heavy";
    assert OccursAt("heavy", "heavy", 0);
    IsSubstringIff("heavy", "heavy");
    assert IsSubstring(SiteVisitWords[3], Lower("heavy"));
    MissingCharNotSubstring("tower", "heavy", 't');
    MissingCharNotSubstring("100-ton", "heavy", 't');
    MissingCharNotSubstring("specialized", "heavy", 's');
    MissingCharNotSubstring("50-ton", "heavy", 't');
    MissingCharNotSubstring("mobile", "heavy", 'm');
    MissingCharNotSubstring("25-ton", "heavy", 't');
  }
}

=== FILE: pricing.dfy ===
/**
 * The cost pipeline of `calculate_equipment_pricing`: shift and complexity
 * multipliers, operator cost, delivery, special-requirement surcharges, the
 * tiered volume discount and 18% GST, and the rounded report it returns.
 * Amounts are exact reals; rounding happens only in the report.
 */
module Pricing {
  import opened Wrappers
  import opened Text
  import opened Rates
  import opened Rounding

  /** The arguments of `calculate_equipment_pricing`. */
  datatype PricingRequest = PricingRequest(
    equipmentType: string,
    rentalDuration: int,
    shiftType: string,
    operatorRequired: bool,
    deliveryDistance: real,
    specialRequirements: string,
    projectComplexity: string)

  /** A request that leaves every optional argument at its default. */
  function DefaultRequest(equipmentType: string, rentalDuration: int, operatorRequired: bool): PricingRequest {
    PricingRequest(equipmentType, rentalDuration, "Day Shift", operatorRequired, 0.0, "", "standard")
  }

  /** GST applied to every line. */
  const TaxRate: real := 0.18

  /** Shift multiplier, looked up by the exact lowered shift name; unknown names get 1.0. */
  function ShiftMultiplier(shiftType: string): (m: real)
    ensures 1.0 <= m <= 1.5
    ensures m == 1.3 <==> Lower(shiftType) == "night shift"
    ensures m == 1.5 <==> Lower(shiftType) == "24/7"
    ensures m == 1.0 <==> Lower(shiftType) != "night shift" && Lower(shiftType) != "24/7"
  {
    var key := Lower(shiftType);
    if key == "day shift" then 1.0
    else if key == "night shift" then 1.3
    else if key == "24/7" then 1.5
    else 1.0
  }

  /** Complexity multiplier, looked up by the exact lowered level; unknown levels get 1.0. */
  function ComplexityMultiplier(projectComplexity: string): (m: real)
    ensures 1.0 <= m <= 1.3
    ensures m == 1.15 <==> Lower(projectComplexity) == "complex"
    ensures m == 1.3 <==> Lower(projectComplexity) == "specialized"
    ensures m == 1.0 <==> Lower(projectComplexity) != "complex" && Lower(projectComplexity) != "specialized"
  {
    var key := Lower(projectComplexity);
    if key == "standard" then 1.0
    else if key == "complex" then 1.15
    else if key == "specialized" then 1.3
    else 1.0
  }

  /** Delivery fee: 350 per km with a 15000 minimum, plus 40000 beyond 160 km; nothing for no distance. */
  function DeliveryCost(distance: real): (c: real)
    ensures c >= 0.0
    ensures distance <= 0.0 ==> c == 0.0
    ensures distance > 0.0 ==> c >= 15000.0 && c >= 350.0 * distance
    ensures distance > 160.0 ==> c == 350.0 * distance + 40000.0
    ensures 0.0 < distance <= 160.0 ==> c <= 56000.0
    ensures 0.0 < distance <= 160.0 ==> c == 15000.0 || c == 350.0 * distance
  {
    if distance > 0.0 then
      var base := if 350.0 * distance > 15000.0 then 350.0 * distance else 15000.0;
      if distance > 160.0 then base + 40000.0 else base
    else 0.0
  }

  /** A longer haul never costs less. */
  lemma DeliveryCostMonotone(near: real, far: real)
    requires near <= far
    ensures DeliveryCost(near) <= DeliveryCost(far)
  {
  }

  /** Surcharge per special-requirement keyword, in declaration order. */
  const SpecialKeywords: seq<(string, nat)> := [
    ("night", 40000), ("weekend", 25000), ("crane pad", 65000), ("rigging", 32000),
    ("assembly", 50000), ("disassembly", 32000), ("permit", 20000)]

  /** The sum of every keyword's cost. */
  function CostCeiling(keywords: seq<(string, nat)>): nat {
    if |keywords| == 0 then 0 else keywords[0].1 + CostCeiling(keywords[1..])
  }

  /** Some keyword of the table occurs in `lowered`. */
  predicate AnyKeyword(keywords: seq<(string, nat)>, lowered: string) {
    exists i :: 0 <= i < |keywords| && IsSubstring(keywords[i].0, lowered)
  }

  /** The loop over the keyword table: each keyword that occurs adds its cost once. */
  function KeywordCostSum(keywords: seq<(string, nat)>, lowered: string): (c: nat)
    ensures c <= CostCeiling(keywords)
    ensures !AnyKeyword(keywords, lowered) ==> c == 0
    ensures (forall i :: 0 <= i < |keywords| ==> keywords[i].1 > 0) && AnyKeyword(keywords, lowered) ==> c > 0
  {
    if |keywords| == 0 then 0
    else
      var rest := KeywordCostSum(keywords[1..], lowered);
      assert forall i :: 1 <= i < |keywords| ==> keywords[i] == keywords[1..][i - 1];
      if IsSubstring(keywords[0].0, lowered) then keywords[0].1 + rest else rest
  }

  /** Surcharge for the special requirements; an empty text costs nothing. */
  function SpecialCost(requirements: string): (c: real)
    ensures 0.0 <= c <= 264000.0
    ensures c == 0.0 <==> !AnyKeyword(SpecialKeywords, Lower(requirements))
  {
    if requirements == "" then
      assert !AnyKeyword(SpecialKeywords, Lower(requirements)) by {
        forall i | 0 <= i < |SpecialKeywords|
          ensures !IsSubstring(SpecialKeywords[i].0, "")
        {
          assert SpecialKeywords[i].0[0] !in "";
          MissingCharNotSubstring(SpecialKeywords[i].0, "", SpecialKeywords[i].0[0]);
        }
      }
      0.0
    else
      assert CostCeiling(SpecialKeywords) == 264000;
      KeywordCostSum(SpecialKeywords, Lower(requirements)) as real
  }

  /** The keyword sum depends only on which keywords occur, not on how often or where. */
  lemma {:induction false} KeywordCostSumDependsOnlyOnMatches(keywords: seq<(string, nat)>, a: string, b: string)
    requires forall i :: 0 <= i < |keywords| ==> (IsSubstring(keywords[i].0, a) <==> IsSubstring(keywords[i].0, b))
    ensures KeywordCostSum(keywords, a) == KeywordCostSum(keywords, b)
  {
    if |keywords| > 0 {
      assert forall i :: 1 <= i < |keywords| ==> keywords[i] == keywords[1..][i - 1];
      KeywordCostSumDependsOnlyOnMatches(keywords[1..], a, b);
    }
  }

  /** Matching more keywords never lowers the keyword sum. */
  lemma {:induction false} KeywordCostSumMonotone(keywords: seq<(string, nat)>, a: string, b: string)
    requires forall i :: 0 <= i < |keywords| ==> IsSubstring(keywords[i].0, a) ==> IsSubstring(keywords[i].0, b)
    ensures KeywordCostSum(keywords, a) <= KeywordCostSum(keywords, b)
  {
    if |keywords| > 0 {
      assert forall i :: 1 <= i < |keywords| ==> keywords[i] == keywords[1..][i - 1];
      KeywordCostSumMonotone(keywords[1..], a, b);
    }
  }

  /** Each keyword adds exactly its own cost: mentioning one more keyword raises the sum by that keyword's price. */
  lemma {:induction false} KeywordCostSumAddsOwnCost(keywords: seq<(string, nat)>, a: string, b: string, i: int)
    requires 0 <= i < |keywords|
    requires forall j :: 0 <= j < |keywords| && j != i ==> (IsSubstring(keywords[j].0, a) <==> IsSubstring(keywords[j].0, b))
    requires !IsSubstring(keywords[i].0, a) && IsSubstring(keywords[i].0, b)
    ensures KeywordCostSum(keywords, b) == KeywordCostSum(keywords, a) + keywords[i].1
  {
    assert forall j :: 1 <= j < |keywords| ==> keywords[j] == keywords[1..][j - 1];
    if i == 0 {
      KeywordCostSumDependsOnlyOnMatches(keywords[1..], a, b);
    } else {
      KeywordCostSumAddsOwnCost(keywords[1..], a, b, i - 1);
    }
  }

  /** The empty-text shortcut agrees with the keyword loop: the surcharge is always the keyword sum. */
  lemma SpecialCostIsKeywordSum(requirements: string)
    ensures SpecialCost(requirements) == KeywordCostSum(SpecialKeywords, Lower(requirements)) as real
  {
  }

  /**
   * The price list: adding one keyword to a requirements text raises the surcharge by
   * exactly that keyword's price.
   */
  lemma SpecialCostAddsKeyword(a: string, b: string, i: int)
    requires 0 <= i < |SpecialKeywords|
    requires forall j :: 0 <= j < |SpecialKeywords| && j != i ==>
               (IsSubstring(SpecialKeywords[j].0, Lower(a)) <==> IsSubstring(SpecialKeywords[j].0, Lower(b)))
    requires !IsSubstring(SpecialKeywords[i].0, Lower(a)) && IsSubstring(SpecialKeywords[i].0, Lower(b))
    ensures SpecialKeywords[i].0 == ["night", "weekend", "crane pad", "rigging", "assembly", "disassembly", "permit"][i]
    ensures SpecialCost(b) == SpecialCost(a) + [40000.0, 25000.0, 65000.0, 32000.0, 50000.0, 32000.0, 20000.0][i]
  {
    SpecialCostIsKeywordSum(a);
    SpecialCostIsKeywordSum(b);
    KeywordCostSumAddsOwnCost(SpecialKeywords, Lower(a), Lower(b), i);
  }

  /** Two requirement texts mentioning the same keywords cost the same. */
  lemma SpecialCostDependsOnlyOnKeywords(a: string, b: string)
    requires forall i :: 0 <= i < |SpecialKeywords| ==>
               (IsSubstring(SpecialKeywords[i].0, Lower(a)) <==> IsSubstring(SpecialKeywords[i].0, Lower(b)))
    ensures SpecialCost(a) == SpecialCost(b)
  {
    KeywordCostSumDependsOnlyOnMatches(SpecialKeywords, Lower(a), Lower(b));
  }

  /** Mentioning more keywords never lowers the surcharge. */
  lemma SpecialCostMonotone(a: string, b: string)
    requires forall i :: 0 <= i < |SpecialKeywords| ==>
               IsSubstring(SpecialKeywords[i].0, Lower(a)) ==> IsSubstring(SpecialKeywords[i].0, Lower(b))
    ensures SpecialCost(a) <= SpecialCost(b)
  {
    if a != "" && b != "" {
      KeywordCostSumMonotone(SpecialKeywords, Lower(a), Lower(b));
    }
  }

  /** Of the keywords, exactly "assembly" (index 4) and "disassembly" (index 5) occur in "disassembly". */
  lemma DisassemblyKeyword(i: nat)
    requires i < |SpecialKeywords|
    ensures IsSubstring(SpecialKeywords[i].0, "disassembly") <==> i == 4 || i == 5
  {
    var t := "disassembly";
    var w := SpecialKeywords[i].0;
    if i == 4 {
      assert OccursAt(w, t, 3);
      IsSubstringIff(w, t);
    } else if i == 5 {
      SubstringOfSelf(t);
    } else {
      var c := if i == 0 then 'n' else if i == 1 then 'w' else if i == 2 then 'c' else if i == 3 then 'r' else 'p';
      assert c in w;
      MissingCharNotSubstring(w, t, c);
    }
  }

  /** A text that contains exactly the keywords "assembly" and "disassembly" is charged 82000. */
  lemma AssemblyPairSum(t: string)
    requires forall i :: 0 <= i < |SpecialKeywords| ==> (IsSubstring(SpecialKeywords[i].0, t) <==> i == 4 || i == 5)
    ensures KeywordCostSum(SpecialKeywords, t) == 82000
  {
    var k := SpecialKeywords;
    assert IsSubstring(k[4].0, t) && IsSubstring(k[5].0, t);
    assert !IsSubstring(k[6].0, t) && !IsSubstring(k[3].0, t) && !IsSubstring(k[2].0, t);
    assert !IsSubstring(k[1].0, t) && !IsSubstring(k[0].0, t);
    assert KeywordCostSum(k[7..], t) == 0;
    assert KeywordCostSum(k[6..], t) == 0;
    assert KeywordCostSum(k[5..], t) == 32000;
    assert KeywordCostSum(k[4..], t) == 82000;
    assert KeywordCostSum(k[3..], t) == 82000;
    assert KeywordCostSum(k[2..], t) == 82000;
    assert KeywordCostSum(k[1..], t) == 82000;
  }

  /** "disassembly" contains "assembly", so it is charged for both keywords: 50000 + 32000. */
  lemma DisassemblyChargesBothKeywords()
    ensures SpecialCost("disassembly") == 82000.0
  {
    var t := "disassembly";
    assert Lower(t) == t;
    forall i | 0 <= i < |SpecialKeywords|
      ensures IsSubstring(SpecialKeywords[i].0, t) <==> i == 4 || i == 5
    {
      DisassemblyKeyword(i);
    }
    AssemblyPairSum(t);
  }

  /** Volume discount rate: exactly one tier applies, chosen by the highest threshold reached. */
  function VolumeDiscountRate(days: int): (r: real)
    ensures 0.0 <= r <= 0.15
    ensures r == 0.15 <==> days >= 30
    ensures r == 0.10 <==> 14 <= days < 30
    ensures r == 0.05 <==> 7 <= days < 14
    ensures r == 0.0 <==> days < 7
  {
    if days >= 30 then 0.15
    else if days >= 14 then 0.10
    else if days >= 7 then 0.05
    else 0.0
  }

  /** A longer rental never gets a smaller discount rate. */
  lemma VolumeDiscountRateMonotone(shorter: int, longer: int)
    requires shorter <= longer
    ensures VolumeDiscountRate(shorter) <= VolumeDiscountRate(longer)
  {
  }

  /** The numbers the cost pipeline works from once tier, multipliers and fees are looked up. */
  datatype LineInputs = LineInputs(
    dailyRate: real,
    operatorDaily: real,
    days: real,
    shift: real,
    complexity: real,
    operatorRequired: bool,
    delivery: real,
    special: real,
    discountRate: real)

  /** The ranges the lookups guarantee for the inputs of a line with a non-negative duration. */
  predicate SaneInputs(x: LineInputs) {
    && x.dailyRate >= 0.0 && x.operatorDaily >= 0.0 && x.days >= 0.0
    && 1.0 <= x.shift && 1.0 <= x.complexity
    && x.delivery >= 0.0 && x.special >= 0.0
    && 0.0 <= x.discountRate <= 0.15
  }

  /** Every intermediate amount of one priced line, at full precision. */
  datatype LineCosts = LineCosts(
    equipmentSubtotal: real,
    equipmentTotal: real,
    operatorTotal: real,
    deliveryCost: real,
    specialCost: real,
    volumeDiscount: real,
    subtotal: real,
    taxAmount: real,
    totalCost: real)

  /**
   * The arithmetic of `calculate_equipment_pricing` in the source's order:
   * the discount is taken on the shift-adjusted equipment cost before the
   * complexity multiplier is applied to equipment and operator cost.
   */
  function LineArithmetic(x: LineInputs): (c: LineCosts)
    ensures c.subtotal == c.equipmentTotal + c.operatorTotal + c.deliveryCost + c.specialCost - c.volumeDiscount
    ensures c.taxAmount == TaxRate * c.subtotal && c.totalCost == c.subtotal + c.taxAmount
    ensures !x.operatorRequired ==> c.operatorTotal == 0.0
    ensures x.operatorRequired ==> c.operatorTotal == x.operatorDaily * x.days * x.shift * x.complexity
    ensures c.equipmentSubtotal == x.dailyRate * x.days
    ensures c.equipmentTotal == x.dailyRate * x.days * x.shift * x.complexity
    ensures c.volumeDiscount == x.dailyRate * x.days * x.shift * x.discountRate
    ensures c.deliveryCost == x.delivery && c.specialCost == x.special
  {
    var equipmentSubtotal := x.dailyRate * x.days;
    var shiftedEquipment := equipmentSubtotal * x.shift;
    var shiftedOperator := if x.operatorRequired then x.operatorDaily * x.days * x.shift else 0.0;
    var discount := shiftedEquipment * x.discountRate;
    var equipmentTotal := shiftedEquipment * x.complexity;
    var operatorTotal := shiftedOperator * x.complexity;
    var subtotal := equipmentTotal + operatorTotal + x.delivery + x.special - discount;
    var tax := subtotal * TaxRate;
    LineCosts(equipmentSubtotal, equipmentTotal, operatorTotal, x.delivery, x.special,
              discount, subtotal, tax, subtotal + tax)
  }

  /** The inputs of a request once its tier is known. */
  function InputsOf(rate: RateMatch, req: PricingRequest): (x: LineInputs)
    ensures req.rentalDuration >= 0 ==> SaneInputs(x)
    ensures x.days == req.rentalDuration as real
  {
    LineInputs(rate.dailyRate as real, rate.operatorDaily as real, req.rentalDuration as real,
               ShiftMultiplier(req.shiftType), ComplexityMultiplier(req.projectComplexity),
               req.operatorRequired, DeliveryCost(req.deliveryDistance),
               SpecialCost(req.specialRequirements), VolumeDiscountRate(req.rentalDuration))
  }

  /** One line priced in full: tier lookup, then the cost pipeline. */
  function ComputeLineCosts(req: PricingRequest): LineCosts {
    LineArithmetic(InputsOf(ResolveRate(req.equipmentType), req))
  }

  /** Net charge per rental day before tax: discounted equipment plus operator. */
  function PerDayCharge(x: LineInputs): real {
    x.dailyRate * x.shift * (x.complexity - x.discountRate)
    + (if x.operatorRequired then x.operatorDaily * x.shift * x.complexity else 0.0)
  }

  /** The subtotal splits into a per-day charge times the days plus delivery and special charges. */
  lemma SubtotalSplitsIntoDailyAndFixed(x: LineInputs)
    ensures LineArithmetic(x).subtotal == x.days * PerDayCharge(x) + x.delivery + x.special
  {
    var c := LineArithmetic(x);
    var D, d, s, k, r := x.dailyRate, x.days, x.shift, x.complexity, x.discountRate;
    assert c.equipmentTotal - c.volumeDiscount == d * (D * s * (k - r)) by {
      assert c.equipmentTotal == D * d * s * k;
      assert c.volumeDiscount == D * d * s * r;
      FactorDays(D, d, s, k, r);
    }
    var operatorPart := if x.operatorRequired then x.operatorDaily * s * k else 0.0;
    assert c.operatorTotal == d * operatorPart by {
      FactorDaysOperator(x.operatorDaily, d, s, k);
    }
    Distribute(d, D * s * (k - r), operatorPart);
  }

  /** d*a + d*b == d*(a + b) over the reals. */
  lemma Distribute(d: real, a: real, b: real)
    ensures d * a + d * b == d * (a + b)
  {
  }

  /** D*d*s*k - D*d*s*r == d*(D*s*(k - r)) over the reals. */
  lemma FactorDays(D: real, d: real, s: real, k: real, r: real)
    ensures D * d * s * k - D * d * s * r == d * (D * s * (k - r))
  {
  }

  /** O*d*s*k == d*(O*s*k) over the reals. */
  lemma FactorDaysOperator(O: real, d: real, s: real, k: real)
    ensures O * d * s * k == d * (O * s * k)
  {
  }

  /** b*k - b*r >= 0 when b >= 0 and k >= r. */
  lemma ScaledGapNonNegative(b: real, k: real, r: real)
    requires b >= 0.0 && k >= r
    ensures b * k - b * r >= 0.0
  {
  }

  /**
   * A line is never discounted below zero: with the ranges the lookups
   * guarantee, the discount stays within the equipment cost and every amount
   * is non-negative.
   */
  lemma LineCostsNonNegative(x: LineInputs)
    requires SaneInputs(x)
    ensures var c := LineArithmetic(x);
            && 0.0 <= c.volumeDiscount <= c.equipmentTotal
            && c.operatorTotal >= 0.0
            && c.subtotal >= c.deliveryCost + c.specialCost >= 0.0
            && c.totalCost >= c.subtotal
  {
    var c := LineArithmetic(x);
    var base := x.dailyRate * x.days * x.shift;
    assert c.volumeDiscount == base * x.discountRate;
    assert c.equipmentTotal == base * x.complexity;
    assert base >= 0.0;
    ScaledGapNonNegative(base, x.complexity, x.discountRate);
    ScaledGapNonNegative(base, x.discountRate, 0.0);
    if x.operatorRequired {
      var shiftedOperator := x.operatorDaily * x.days * x.shift;
      assert shiftedOperator >= 0.0;
      ScaledGapNonNegative(shiftedOperator, x.complexity, 0.0);
    }
  }

  /** `x / d` only shrinks as `d` grows, for `x >= 0`. */
  lemma DivideByLarger(x: real, d1: real, d2: real)
    requires x >= 0.0 && 0.0 < d1 <= d2
    ensures x / d2 <= x / d1
  {
  }

  /** (d*p + f)/d == p + f/d over the reals. */
  lemma DivideSum(d: real, p: real, f: real)
    requires d != 0.0
    ensures (d * p + f) / d == p + f / d
  {
  }

  /** The daily average is the taxed per-day charge plus the taxed fixed charges spread over the days. */
  lemma DailyAverageForm(x: LineInputs)
    requires x.days > 0.0
    ensures LineArithmetic(x).totalCost / x.days
            == (1.0 + TaxRate) * (PerDayCharge(x) + (x.delivery + x.special) / x.days)
  {
    var p := PerDayCharge(x);
    var f := x.delivery + x.special;
    SubtotalSplitsIntoDailyAndFixed(x);
    var sub := x.days * p + f;
    assert LineArithmetic(x).totalCost == (1.0 + TaxRate) * sub;
    DivideSum(x.days, p, f);
  }

  /**
   * Renting longer never raises the daily average: the volume discount only
   * grows and the fixed charges are spread over more days.
   */
  lemma DailyAverageNonIncreasing(x: LineInputs, longer: real, longerRate: real)
    requires SaneInputs(x) && x.days > 0.0
    requires x.days <= longer && x.discountRate <= longerRate <= 0.15
    ensures LineArithmetic(x.(days := longer, discountRate := longerRate)).totalCost / longer
            <= LineArithmetic(x).totalCost / x.days
  {
    var y := x.(days := longer, discountRate := longerRate);
    DailyAverageForm(x);
    DailyAverageForm(y);
    var dailyBase := x.dailyRate * x.shift;
    assert dailyBase >= 0.0;
    ScaledGapNonNegative(dailyBase, longerRate, x.discountRate);
    assert PerDayCharge(y) <= PerDayCharge(x);
    DivideByLarger(x.delivery + x.special, x.days, longer);
  }

  /** Total cost per day of a request, unrounded. */
  function DailyAverage(req: PricingRequest): real
    requires req.rentalDuration != 0
  {
    ComputeLineCosts(req).totalCost / req.rentalDuration as real
  }

  /** The same non-increase stated on requests: only the rental length changes. */
  lemma RequestDailyAverageNonIncreasing(req: PricingRequest, longer: int)
    requires 1 <= req.rentalDuration <= longer
    ensures DailyAverage(req.(rentalDuration := longer)) <= DailyAverage(req)
  {
    var rate := ResolveRate(req.equipmentType);
    var req2 := req.(rentalDuration := longer);
    VolumeDiscountRateMonotone(req.rentalDuration, longer);
    var x := InputsOf(rate, req);
    assert InputsOf(rate, req2) == x.(days := longer as real, discountRate := VolumeDiscountRate(longer));
    DailyAverageNonIncreasing(x, longer as real, VolumeDiscountRate(longer));
  }

  /** The discount as a percentage of the complexity-adjusted equipment cost, 0 when there is none. */
  function DiscountPercentage(c: LineCosts): (p: real)
    ensures c.equipmentTotal <= 0.0 ==> p == 0.0
    ensures c.equipmentTotal > 0.0 ==> p * c.equipmentTotal == c.volumeDiscount * 100.0
  {
    if c.equipmentTotal > 0.0 then c.volumeDiscount / c.equipmentTotal * 100.0 else 0.0
  }

  /** (b*r)/(b*k)*100*k == r*100 for non-zero b and k. */
  lemma RatioOfScaled(b: real, k: real, r: real)
    requires b != 0.0 && k != 0.0
    ensures (b * r) / (b * k) * 100.0 * k == r * 100.0
  {
  }

  /**
   * The reported percentage is the tier rate divided by the complexity
   * multiplier, so it equals the tier rate exactly when the multiplier is 1
   * or no discount applies.
   */
  lemma DiscountPercentageScaledByComplexity(x: LineInputs)
    requires LineArithmetic(x).equipmentTotal > 0.0 && x.complexity > 0.0
    ensures DiscountPercentage(LineArithmetic(x)) * x.complexity == x.discountRate * 100.0
    ensures DiscountPercentage(LineArithmetic(x)) == x.discountRate * 100.0
            <==> x.discountRate == 0.0 || x.complexity == 1.0
  {
    var c := LineArithmetic(x);
    var base := x.dailyRate * x.days * x.shift;
    var k := x.complexity;
    assert c.equipmentTotal == base * k;
    assert c.volumeDiscount == base * x.discountRate;
    RatioOfScaled(base, k, x.discountRate);
    var p := DiscountPercentage(c);
    assert p * k == x.discountRate * 100.0;
    QuotientOfProduct(p, k, x.discountRate * 100.0);
    QuotientUnchangedIff(x.discountRate * 100.0, k);
  }

  /** p*k == a with k non-zero means p == a/k. */
  lemma QuotientOfProduct(p: real, k: real, a: real)
    requires k != 0.0 && p * k == a
    ensures p == a / k
  {
  }

  /** a*k == a with a non-zero forces k == 1. */
  lemma ProductCancels(a: real, k: real)
    requires a != 0.0 && a * k == a
    ensures k == 1.0
  {
    assert a * (k - 1.0) == 0.0;
  }

  /** a/k == a exactly when a == 0 or k == 1. */
  lemma QuotientUnchangedIff(a: real, k: real)
    requires k != 0.0
    ensures a / k == a <==> a == 0.0 || k == 1.0
  {
    if a / k == a && a != 0.0 {
      var q := a / k;
      assert q * k == a;
      calc {
        a * k;
        q * k;
        a;
      }
      ProductCancels(a, k);
    }
  }

  /** Why `calculate_equipment_pricing` can fail: `total_cost / rental_duration` with a zero duration. */
  datatype PricingError = ZeroDivisionError

  /** The dictionary `calculate_equipment_pricing` returns, with its rounded amounts. */
  datatype PricingReport = PricingReport(
    equipmentMatch: string,
    baseDailyRate: nat,
    rentalDays: int,
    shiftType: string,
    shiftMultiplier: real,
    complexityMultiplier: real,
    equipmentSubtotal: real,
    equipmentTotal: real,
    operatorRequired: bool,
    operatorDailyRate: nat,
    operatorTotal: real,
    deliveryDistance: real,
    deliveryCost: real,
    specialRequirementsCost: real,
    volumeDiscountPercentage: real,
    volumeDiscountAmount: real,
    subtotal: real,
    taxRate: string,
    taxAmount: real,
    totalCost: real,
    dailyAverage: real)

  /** `calculate_equipment_pricing`: one priced line, or the division error of a zero duration. */
  function CalculateEquipmentPricing(req: PricingRequest): (r: Result<PricingReport, PricingError>)
    ensures r.Failure? <==> req.rentalDuration == 0
    ensures r.Success? ==> r.value.equipmentMatch == ResolveRate(req.equipmentType).equipmentMatch
    ensures r.Success? ==> var c := ComputeLineCosts(req);
              && r.value.totalCost == Round2(c.totalCost)
              && r.value.subtotal == Round2(c.subtotal)
              && r.value.taxAmount == Round2(c.taxAmount)
              && r.value.dailyAverage == Round2(c.totalCost / req.rentalDuration as real)
    ensures r.Success? && !req.operatorRequired ==> r.value.operatorDailyRate == 0 && r.value.operatorTotal == 0.0
    ensures r.Success? ==> var c := ComputeLineCosts(req);
              && r.value.equipmentSubtotal == Round2(c.equipmentSubtotal)
              && r.value.equipmentTotal == Round2(c.equipmentTotal)
              && r.value.operatorTotal == Round2(c.operatorTotal)
              && r.value.deliveryCost == Round2(c.deliveryCost)
              && r.value.specialRequirementsCost == Round2(c.specialCost)
              && r.value.volumeDiscountAmount == Round2(c.volumeDiscount)
              && r.value.volumeDiscountPercentage == Round1(DiscountPercentage(c))
    ensures r.Success? ==> var rate := ResolveRate(req.equipmentType);
              && r.value.baseDailyRate == rate.dailyRate && r.value.rentalDays == req.rentalDuration
              && r.value.shiftMultiplier == ShiftMultiplier(req.shiftType)
              && r.value.complexityMultiplier == ComplexityMultiplier(req.projectComplexity)
              && (req.operatorRequired ==> r.value.operatorDailyRate == rate.operatorDaily)
    ensures r.Success? ==> && r.value.shiftType == req.shiftType && r.value.operatorRequired == req.operatorRequired
                           && r.value.deliveryDistance == req.deliveryDistance && r.value.taxRate == "18.0%"
  {
    var rate := ResolveRate(req.equipmentType);
    var x := InputsOf(rate, req);
    var c := LineArithmetic(x);
    if req.rentalDuration == 0 then Failure(ZeroDivisionError)
    else
      Success(PricingReport(
        rate.equipmentMatch,
        rate.dailyRate,
        req.rentalDuration,
        req.shiftType,
        x.shift,
        x.complexity,
        Round2(c.equipmentSubtotal),
        Round2(c.equipmentTotal),
        req.operatorRequired,
        if req.operatorRequired then rate.operatorDaily else 0,
        Round2(c.operatorTotal),
        req.deliveryDistance,
        Round2(c.deliveryCost),
        Round2(c.specialCost),
        Round1(DiscountPercentage(c)),
        Round2(c.volumeDiscount),
        Round2(c.subtotal),
        "18.0%",
        Round2(c.taxAmount),
        Round2(c.totalCost),
        Round2(c.totalCost / req.rentalDuration as real)))
  }

  /** Three whole-cent amounts within 1.5 cents of an identity are within one cent of it. */
  lemma CentGapAtMostOne(t: real, s: real, x: real)
    requires OnCents(t) && OnCents(s) && OnCents(x)
    requires -0.015 <= t - (s + x) <= 0.015
    ensures -0.01 <= t - (s + x) <= 0.01
  {
    var n := (t * 100.0).Floor - (s * 100.0).Floor - (x * 100.0).Floor;
    assert (t - (s + x)) * 100.0 == n as real;
  }

  /** After rounding, the reported total differs from reported subtotal plus reported tax by at most one cent. */
  lemma RoundedTotalWithinOneCent(c: LineCosts)
    requires c.totalCost == c.subtotal + c.taxAmount
    ensures -0.01 <= Round2(c.totalCost) - (Round2(c.subtotal) + Round2(c.taxAmount)) <= 0.01
  {
    CentGapAtMostOne(Round2(c.totalCost), Round2(c.subtotal), Round2(c.taxAmount));
  }

  /** The one-cent tolerance of the reported line totals, stated on the report. */
  lemma ReportedTotalWithinOneCent(req: PricingRequest)
    requires req.rentalDuration != 0
    ensures var p := CalculateEquipmentPricing(req).value;
            -0.01 <= p.totalCost - (p.subtotal + p.taxAmount) <= 0.01
  {
    RoundedTotalWithinOneCent(ComputeLineCosts(req));
  }

}

=== FILE: quote.dfy ===
/**
 * The arithmetic of `generate_project_quote`: every equipment line priced
 * with the default options, the rounded line totals summed, project fees
 * added, 8% project tax, and a 50/50 deposit and balance.
 */
module Quote {
  import opened Wrappers
  import opened Rounding
  import opened Pricing

  /** One entry of `equipment_list`; each key may be missing. */
  datatype EquipmentItem = EquipmentItem(
    equipmentType: Option<string>,
    duration: Option<int>,
    operator: Option<bool>)

  /** The project arguments the arithmetic depends on. */
  datatype ProjectParams = ProjectParams(
    projectDuration: int,
    includePermits: bool,
    rushOrder: bool)

  /** One row of `equipment_breakdown`. */
  datatype LineQuote = LineQuote(
    equipmentType: string,
    duration: int,
    operatorIncluded: bool,
    cost: real)

  /** The pricing request of one item: Day Shift, no delivery, no special requirements, standard complexity. */
  function LineRequest(item: EquipmentItem, projectDuration: int): PricingRequest {
    DefaultRequest(item.equipmentType.GetOr(""), item.duration.GetOr(projectDuration), item.operator.GetOr(false))
  }

  /** The rounded total cost of one item, as the line pricing reports it. */
  function LineCost(item: EquipmentItem, projectDuration: int): real {
    Round2(ComputeLineCosts(LineRequest(item, projectDuration)).totalCost)
  }

  /** The breakdown row of one item. */
  function LineQuoteOf(item: EquipmentItem, projectDuration: int): (l: LineQuote)
    ensures item.equipmentType.Some? ==> l.equipmentType == item.equipmentType.value
    ensures item.equipmentType.None? ==> l.equipmentType == ""
    ensures item.duration.Some? ==> l.duration == item.duration.value
    ensures item.duration.None? ==> l.duration == projectDuration
    ensures l.operatorIncluded <==> item.operator == Some(true)
    ensures l.cost == LineCost(item, projectDuration) && OnCents(l.cost)
  {
    var req := LineRequest(item, projectDuration);
    LineQuote(req.equipmentType, req.rentalDuration, req.operatorRequired, LineCost(item, projectDuration))
  }

  /** The item's effective duration is zero, so pricing it divides by zero. */
  predicate DividesByZero(item: EquipmentItem, projectDuration: int) {
    item.duration.GetOr(projectDuration) == 0
  }

  /** Prices one item: its breakdown row, or the division error of a zero duration. */
  function PriceItem(item: EquipmentItem, projectDuration: int): (r: Result<LineQuote, PricingError>)
    ensures r.Failure? <==> DividesByZero(item, projectDuration)
    ensures r.Success? ==> r.value == LineQuoteOf(item, projectDuration)
  {
    if DividesByZero(item, projectDuration) then Failure(ZeroDivisionError)
    else Success(LineQuoteOf(item, projectDuration))
  }

  /** Pricing one item agrees with `calculate_equipment_pricing` on its request: same failure, same reported total. */
  lemma PriceItemAgreesWithPricing(item: EquipmentItem, projectDuration: int)
    ensures var p := CalculateEquipmentPricing(LineRequest(item, projectDuration));
            && (PriceItem(item, projectDuration).Failure? <==> p.Failure?)
            && (p.Success? ==> PriceItem(item, projectDuration).value.cost == p.value.totalCost)
  {
  }

  /** The item pricer of a project: items without a duration take the project's. */
  function PricerFor(projectDuration: int): EquipmentItem -> Result<LineQuote, PricingError> {
    item => PriceItem(item, projectDuration)
  }

  /** The loop over `equipment_list`: the rows in input order, or the first failure. */
  function PriceAll(items: seq<EquipmentItem>, price: EquipmentItem -> Result<LineQuote, PricingError>)
    : (r: Result<seq<LineQuote>, PricingError>)
    ensures r.Failure? <==> exists i :: 0 <= i < |items| && price(items[i]).Failure?
    ensures r.Success? ==> |r.value| == |items|
    ensures r.Success? ==> forall i :: 0 <= i < |items| ==> price(items[i]) == Success(r.value[i])
  {
    if |items| == 0 then Success([])
    else
      match price(items[0])
      case Failure(e) => Failure(e)
      case Success(line) =>
        match PriceAll(items[1..], price)
        case Failure(e) =>
          assert forall i :: 1 <= i < |items| ==> items[i] == items[1..][i - 1];
          Failure(e)
        case Success(rest) =>
          assert forall i :: 1 <= i < |items| ==> items[i] == items[1..][i - 1];
          Success([line] + rest)
  }

  /** Sum of the breakdown's costs. */
  function SumCosts(lines: seq<LineQuote>): real {
    if |lines| == 0 then 0.0 else lines[0].cost + SumCosts(lines[1..])
  }

  /** Sum of `g` over a sequence. */
  function SumOf<A>(g: A -> real, s: seq<A>): real {
    if |s| == 0 then 0.0 else g(s[0]) + SumOf(g, s[1..])
  }

  /** The rounded line cost of an item within a project. */
  function CostFor(projectDuration: int): EquipmentItem -> real {
    item => LineCost(item, projectDuration)
  }

  /** The project's cost breakdown and payment schedule. */
  datatype QuoteCosts = QuoteCosts(
    equipmentTotal: real,
    managementFee: real,
    insurance: real,
    sitePreparation: real,
    permitAssistance: real,
    rushSurcharge: real,
    subtotal: real,
    taxAmount: real,
    grandTotal: real,
    deposit: real,
    balance: real)

  /** Project tax applied to the quote subtotal. */
  const ProjectTaxRate: real := 0.08

  /** Fees, tax and payment split on top of the summed line totals, at full precision. */
  function ProjectCosts(equipmentTotal: real, params: ProjectParams): (q: QuoteCosts)
    ensures q.equipmentTotal == equipmentTotal
    ensures q.managementFee == 0.08 * equipmentTotal && q.insurance == 0.03 * equipmentTotal
    ensures q.sitePreparation == (if params.projectDuration > 7 then 1500.0 else 0.0)
    ensures q.permitAssistance == (if params.includePermits then 2500.0 else 0.0)
    ensures q.rushSurcharge == (if params.rushOrder then 0.20 * equipmentTotal else 0.0)
    ensures q.subtotal == q.equipmentTotal + q.managementFee + q.insurance
                          + q.sitePreparation + q.permitAssistance + q.rushSurcharge
    ensures q.taxAmount == ProjectTaxRate * q.subtotal && q.grandTotal == q.subtotal + q.taxAmount
    ensures q.deposit == q.balance && q.deposit + q.balance == q.grandTotal
  {
    var management := equipmentTotal * 0.08;
    var insurance := equipmentTotal * 0.03;
    var sitePrep := if params.projectDuration > 7 then 1500.0 else 0.0;
    var permit := if params.includePermits then 2500.0 else 0.0;
    var rush := if params.rushOrder then equipmentTotal * 0.20 else 0.0;
    var subtotal := equipmentTotal + management + insurance + sitePrep + permit + rush;
    var tax := subtotal * ProjectTaxRate;
    var grand := subtotal + tax;
    var deposit := grand * 0.50;
    QuoteCosts(equipmentTotal, management, insurance, sitePrep, permit, rush, subtotal, tax, grand,
               deposit, grand - deposit)
  }

  /** Every amount rounded to cents, as the quote reports it. */
  function RoundCosts(q: QuoteCosts): (r: QuoteCosts)
    ensures CentRounded(q.equipmentTotal, r.equipmentTotal) && CentRounded(q.managementFee, r.managementFee)
    ensures CentRounded(q.insurance, r.insurance) && CentRounded(q.sitePreparation, r.sitePreparation)
    ensures CentRounded(q.permitAssistance, r.permitAssistance) && CentRounded(q.rushSurcharge, r.rushSurcharge)
    ensures CentRounded(q.subtotal, r.subtotal) && CentRounded(q.taxAmount, r.taxAmount)
    ensures CentRounded(q.grandTotal, r.grandTotal)
    ensures CentRounded(q.deposit, r.deposit) && CentRounded(q.balance, r.balance)
  {
    QuoteCosts(Round2(q.equipmentTotal), Round2(q.managementFee), Round2(q.insurance),
               Round2(q.sitePreparation), Round2(q.permitAssistance), Round2(q.rushSurcharge),
               Round2(q.subtotal), Round2(q.taxAmount), Round2(q.grandTotal),
               Round2(q.deposit), Round2(q.balance))
  }

  /**
   * Deposit and balance are rounded separately from the grand total, so the reported
   * deposit plus the reported balance may miss the reported grand total, but by one cent at most.
   */
  lemma ReportedPaymentWithinOneCent(equipmentTotal: real, params: ProjectParams)
    ensures var r := RoundCosts(ProjectCosts(equipmentTotal, params));
            -0.01 <= r.grandTotal - (r.deposit + r.balance) <= 0.01
  {
    var r := RoundCosts(ProjectCosts(equipmentTotal, params));
    CentGapAtMostOne(r.grandTotal, r.deposit, r.balance);
  }

  /**
   * The cent is really lost: an equipment total of 151040.00 (one 25-ton mobile crane for
   * one day with an operator) has a grand total of 181066.752, reported as 181066.75, while
   * deposit and balance of 90533.376 are each reported as 90533.38.
   */
  lemma ReportedPaymentMissesTotalByACent()
    ensures var r := RoundCosts(ProjectCosts(151040.0, ProjectParams(1, false, false)));
            && r.grandTotal == 181066.75 && r.deposit == 90533.38 && r.balance == 90533.38
            && r.deposit + r.balance == r.grandTotal + 0.01
  {
    var q := ProjectCosts(151040.0, ProjectParams(1, false, false));
    assert q.grandTotal == 181066.752 && q.deposit == 90533.376 && q.balance == 90533.376;
    Round2Nearest(q.grandTotal, 18106675);
    Round2Nearest(q.deposit, 9053338);
    Round2Nearest(q.balance, 9053338);
  }

  /** The dictionary `generate_project_quote` returns, less ids, dates and echoed text. */
  datatype ProjectQuote = ProjectQuote(
    breakdown: seq<LineQuote>,
    costs: QuoteCosts,
    depositPercentage: string)

  /** `generate_project_quote`: the line breakdown and the rounded project costs, or a line's division error. */
  function GenerateProjectQuote(items: seq<EquipmentItem>, params: ProjectParams): (r: Result<ProjectQuote, PricingError>)
    ensures r.Failure? <==> exists i :: 0 <= i < |items| && DividesByZero(items[i], params.projectDuration)
    ensures r.Success? ==> |r.value.breakdown| == |items|
    ensures r.Success? ==> forall i :: 0 <= i < |items| ==>
              r.value.breakdown[i] == LineQuoteOf(items[i], params.projectDuration)
    ensures r.Success? ==> r.value.costs == RoundCosts(ProjectCosts(SumCosts(r.value.breakdown), params))
  {
    match PriceAll(items, PricerFor(params.projectDuration))
    case Failure(e) => Failure(e)
    case Success(lines) =>
      Success(ProjectQuote(lines, RoundCosts(ProjectCosts(SumCosts(lines), params)), "50%"))
  }

  /** Rows whose costs are `g` of the items add up to the sum of `g`. */
  lemma {:induction false} SumCostsOfRows<A>(items: seq<A>, lines: seq<LineQuote>, g: A -> real)
    requires |lines| == |items|
    requires forall i :: 0 <= i < |items| ==> lines[i].cost == g(items[i])
    ensures SumCosts(lines) == SumOf(g, items)
  {
    if |items| > 0 {
      SumCostsOfRows(items[1..], lines[1..], g);
    }
  }

  /** The sum over a concatenation is the sum of the two sums. */
  lemma {:induction false} SumOfSplit<A>(g: A -> real, a: seq<A>, b: seq<A>)
    ensures SumOf(g, a + b) == SumOf(g, a) + SumOf(g, b)
  {
    if |a| == 0 {
      assert a + b == b;
    } else {
      assert (a + b)[0] == a[0];
      assert (a + b)[1..] == a[1..] + b;
      SumOfSplit(g, a[1..], b);
    }
  }

  /** A sum does not depend on the order of its terms. */
  lemma {:induction false} SumOfPermutation<A>(g: A -> real, a: seq<A>, b: seq<A>)
    requires multiset(a) == multiset(b)
    ensures SumOf(g, a) == SumOf(g, b)
    decreases |a|
  {
    if |a| == 0 {
      assert |b| == |multiset(b)| == 0;
    } else {
      var x := a[0];
      assert x in multiset(b);
      var j :| 0 <= j < |b| && b[j] == x;
      var rest := b[..j] + b[j + 1..];
      assert b == b[..j] + ([x] + b[j + 1..]);
      assert a == [x] + a[1..];
      assert multiset(b) == multiset(b[..j]) + multiset{x} + multiset(b[j + 1..]);
      assert multiset(rest) == multiset(b[..j]) + multiset(b[j + 1..]);
      assert multiset(a) == multiset{x} + multiset(a[1..]);
      assert multiset(a[1..]) == multiset(a) - multiset{x};
      assert multiset(rest) == multiset(b) - multiset{x};
      SumOfPermutation(g, a[1..], rest);
      SumOfSplit(g, b[..j], [x] + b[j + 1..]);
      assert ([x] + b[j + 1..])[1..] == b[j + 1..];
      SumOfSplit(g, b[..j], b[j + 1..]);
    }
  }

  /** A sum of whole-cent line costs is a whole number of cents. */
  lemma {:induction false} SumCostsOnCents(lines: seq<LineQuote>)
    requires forall i :: 0 <= i < |lines| ==> OnCents(lines[i].cost)
    ensures OnCents(SumCosts(lines))
  {
    if |lines| > 0 {
      SumCostsOnCents(lines[1..]);
      OnCentsAdd(lines[0].cost, SumCosts(lines[1..]));
    }
  }

  /** The reported equipment total is exactly the sum of the reported line costs: no extra rounding. */
  lemma ReportedEquipmentTotalIsSumOfLines(items: seq<EquipmentItem>, params: ProjectParams)
    requires forall i :: 0 <= i < |items| ==> items[i].duration.GetOr(params.projectDuration) != 0
    ensures GenerateProjectQuote(items, params).Success?
    ensures var q := GenerateProjectQuote(items, params).value;
            q.costs.equipmentTotal == SumCosts(q.breakdown)
  {
    var q := GenerateProjectQuote(items, params).value;
    forall i | 0 <= i < |q.breakdown|
      ensures OnCents(q.breakdown[i].cost)
    {
      assert q.breakdown[i] == LineQuoteOf(items[i], params.projectDuration);
    }
    SumCostsOnCents(q.breakdown);
    Round2OnCents(SumCosts(q.breakdown));
  }

  /** An empty equipment list is accepted: no equipment cost, only the flat fees and their tax. */
  lemma EmptyEquipmentListQuote(params: ProjectParams)
    ensures GenerateProjectQuote([], params).Success?
    ensures var q := ProjectCosts(SumCosts(GenerateProjectQuote([], params).value.breakdown), params);
            && q.equipmentTotal == 0.0
            && q.grandTotal == 1.08 * (q.sitePreparation + q.permitAssistance)
  {
  }

  /** The reported rush surcharge of a rush order is 20% of the equipment total, rounded once. */
  lemma RoundedRush(equipmentTotal: real, params: ProjectParams)
    requires params.rushOrder
    ensures RoundCosts(ProjectCosts(equipmentTotal, params)).rushSurcharge == Round2(0.20 * equipmentTotal)
  {
    var exact := ProjectCosts(equipmentTotal, params);
    assert exact.rushSurcharge == 0.20 * equipmentTotal;
  }

  /** The quote does not depend on the order of the equipment list, only on its contents. */
  lemma QuoteOrderIndependent(a: seq<EquipmentItem>, b: seq<EquipmentItem>, params: ProjectParams)
    requires multiset(a) == multiset(b)
    ensures GenerateProjectQuote(a, params).Success? == GenerateProjectQuote(b, params).Success?
    ensures GenerateProjectQuote(a, params).Success? ==>
              GenerateProjectQuote(a, params).value.costs == GenerateProjectQuote(b, params).value.costs
  {
    var pd := params.projectDuration;
    if exists i :: 0 <= i < |a| && DividesByZero(a[i], pd) {
      var i :| 0 <= i < |a| && DividesByZero(a[i], pd);
      assert a[i] in multiset(b);
    }
    if exists i :: 0 <= i < |b| && DividesByZero(b[i], pd) {
      var i :| 0 <= i < |b| && DividesByZero(b[i], pd);
      assert b[i] in multiset(a);
    }
    if GenerateProjectQuote(a, params).Success? {
      var qa, qb := GenerateProjectQuote(a, params).value, GenerateProjectQuote(b, params).value;
      forall i | 0 <= i < |a| ensures qa.breakdown[i].cost == CostFor(pd)(a[i]) {
        assert qa.breakdown[i] == LineQuoteOf(a[i], pd);
      }
      forall i | 0 <= i < |b| ensures qb.breakdown[i].cost == CostFor(pd)(b[i]) {
        assert qb.breakdown[i] == LineQuoteOf(b[i], pd);
      }
      SumCostsOfRows(a, qa.breakdown, CostFor(pd));
      SumCostsOfRows(b, qb.breakdown, CostFor(pd));
      SumOfPermutation(CostFor(pd), a, b);
    }
  }
}

=== FILE: rates.dfy ===
/**
 * The base rate table of `calculate_equipment_pricing` and the lookup that
 * maps a free-text equipment description to a (category, variant) tier.
 */
module Rates {
  import opened Wrappers
  import opened Text

  /** Daily, hourly and operator-daily rates of one tier, in rupees. */
  datatype TierRates = TierRates(dailyRate: nat, hourlyRate: nat, operatorDaily: nat)

  datatype Variant = Variant(name: string, rates: TierRates)

  datatype Category = Category(name: string, variants: seq<Variant>)

  /** The table in declaration order; the order decides which tier wins. */
  const RateTable: seq<Category> := [
    Category("mobile crane", [
      Variant("25-ton", TierRates(120000, 15000, 8000)),
      Variant("50-ton", TierRates(200000, 25000, 10000)),
      Variant("100-ton", TierRates(350000, 44000, 12000)),
      Variant("130-ton", TierRates(450000, 56000, 15000)),
      Variant("150-ton", TierRates(550000, 69000, 18000))]),
    Category("tower crane", [
      Variant("standard", TierRates(300000, 38000, 12000)),
      Variant("heavy-duty", TierRates(450000, 56000, 15000))]),
    Category("boom lift", [
      Variant("40ft", TierRates(80000, 10000, 6000)),
      Variant("60ft", TierRates(120000, 15000, 7000)),
      Variant("80ft", TierRates(180000, 23000, 8000))]),
    Category("rough terrain crane", [
      Variant("30-ton", TierRates(150000, 19000, 9000)),
      Variant("40-ton", TierRates(180000, 23000, 10000))])
  ]

  /** Rates used when no tier matches the description. */
  const DefaultDailyRate: nat := 120000
  const DefaultOperatorDaily: nat := 6500

  /** A variant matches when its name, or one of its `-`-separated tokens, occurs in the lowered description. */
  predicate VariantMatches(variant: string, lowered: string) {
    IsSubstring(variant, lowered) || AnyOccurs(SplitOn(variant, '-'), lowered)
  }

  /**
   * The whole-name test adds nothing to the token test: the first token is a prefix of
   * the name, so wherever the name occurs a token occurs too.
   */
  lemma VariantMatchesIffSomeToken(variant: string, lowered: string)
    ensures VariantMatches(variant, lowered)
            <==> exists i :: 0 <= i < |SplitOn(variant, '-')| && IsSubstring(SplitOn(variant, '-')[i], lowered)
  {
    var tokens := SplitOn(variant, '-');
    SplitOnFirstIsPrefix(variant, '-');
    assert IsSubstring(tokens[0], variant);
    if IsSubstring(variant, lowered) {
      SubstringTransitive(tokens[0], variant, lowered);
    }
  }

  /** Tier (ci, vi) exists, its category name occurs in the description and its variant matches. */
  predicate PairMatches(table: seq<Category>, lowered: string, ci: int, vi: int) {
    && 0 <= ci < |table|
    && 0 <= vi < |table[ci].variants|
    && IsSubstring(table[ci].name, lowered)
    && VariantMatches(table[ci].variants[vi].name, lowered)
  }

  /** Declaration order on tiers: by category, then by variant. */
  predicate Precedes(ci: int, vi: int, cj: int, vj: int) {
    ci < cj || (ci == cj && vi <= vj)
  }

  /** (ci, vi) matches and no matching tier is declared before it. */
  ghost predicate IsFirstMatch(table: seq<Category>, lowered: string, ci: int, vi: int) {
    && PairMatches(table, lowered, ci, vi)
    && forall cj, vj :: PairMatches(table, lowered, cj, vj) ==> Precedes(ci, vi, cj, vj)
  }

  /** The inner loop: the first variant at or after `from` that matches. */
  function FirstVariant(variants: seq<Variant>, lowered: string, from: nat): (r: Option<nat>)
    requires from <= |variants|
    ensures r.Some? ==> from <= r.value < |variants| && VariantMatches(variants[r.value].name, lowered)
    ensures r.Some? ==> forall k :: from <= k < r.value ==> !VariantMatches(variants[k].name, lowered)
    ensures r.None? <==> forall k :: from <= k < |variants| ==> !VariantMatches(variants[k].name, lowered)
    decreases |variants| - from
  {
    if from == |variants| then None
    else if VariantMatches(variants[from].name, lowered) then Some(from)
    else FirstVariant(variants, lowered, from + 1)
  }

  /**
   * The outer loop: categories from `from` on.  A category whose name occurs
   * but none of whose variants match does not end the scan.
   */
  function FirstMatchFrom(table: seq<Category>, lowered: string, from: nat): (r: Option<(nat, nat)>)
    requires from <= |table|
    ensures r.Some? ==> from <= r.value.0 && PairMatches(table, lowered, r.value.0, r.value.1)
    ensures r.Some? ==> forall cj, vj :: (from <= cj && PairMatches(table, lowered, cj, vj) ==>
                          Precedes(r.value.0, r.value.1, cj, vj))
    ensures r.None? <==> forall cj, vj :: from <= cj ==> !PairMatches(table, lowered, cj, vj)
    decreases |table| - from
  {
    if from == |table| then None
    else if IsSubstring(table[from].name, lowered) then
      match FirstVariant(table[from].variants, lowered, 0)
      case Some(vi) =>
        assert forall vj :: PairMatches(table, lowered, from, vj) ==> vi <= vj;
        assert PairMatches(table, lowered, from, vi);
        Some((from, vi))
      case None => FirstMatchFrom(table, lowered, from + 1)
    else FirstMatchFrom(table, lowered, from + 1)
  }

  /** The resolved tier as the source reports it: `equipment_match` and the two rates it uses. */
  datatype RateMatch = RateMatch(equipmentMatch: string, dailyRate: nat, operatorDaily: nat)

  /** The report of tier (ci, vi): `"category (variant)"` and its rates. */
  function TierMatch(table: seq<Category>, ci: nat, vi: nat): RateMatch
    requires ci < |table| && vi < |table[ci].variants|
  {
    var v := table[ci].variants[vi];
    RateMatch(table[ci].name + " (" + v.name + ")", v.rates.dailyRate, v.rates.operatorDaily)
  }

  /** The tier lookup of `calculate_equipment_pricing`. */
  function ResolveRate(equipmentType: string): (m: RateMatch)
    ensures (forall ci, vi :: !PairMatches(RateTable, Lower(equipmentType), ci, vi)) ==>
              m == RateMatch(equipmentType, DefaultDailyRate, DefaultOperatorDaily)
    ensures forall ci: nat, vi: nat :: (IsFirstMatch(RateTable, Lower(equipmentType), ci, vi) ==>
              m == TierMatch(RateTable, ci, vi))
  {
    match FirstMatchFrom(RateTable, Lower(equipmentType), 0)
    case Some((ci, vi)) => TierMatch(RateTable, ci, vi)
    case None => RateMatch(equipmentType, DefaultDailyRate, DefaultOperatorDaily)
  }

  /** The first-declared tier that matches is unique. */
  lemma FirstMatchUnique(table: seq<Category>, lowered: string, ci: int, vi: int, cj: int, vj: int)
    requires IsFirstMatch(table, lowered, ci, vi) && IsFirstMatch(table, lowered, cj, vj)
    ensures ci == cj && vi == vj
  {
  }

  /** The report of the first tier, the 25-ton mobile crane. */
  lemma FirstTierReport()
    ensures TierMatch(RateTable, 0, 0) == RateMatch("mobile crane (25-ton)", 120000, 8000)
  {
  }

  /** Any description with "mobile crane" and "ton" in it matches the first tier. */
  lemma TonMatchesFirstTier(lowered: string)
    requires IsSubstring("mobile crane", lowered) && IsSubstring("ton", lowered)
    ensures IsFirstMatch(RateTable, lowered, 0, 0)
  {
    assert SplitOn("25-ton", '-')[1] == "ton";
    assert AnyIn(SplitOn("25-ton", '-'), lowered);
    assert PairMatches(RateTable, lowered, 0, 0);
  }

  /**
   * Any description naming a mobile crane and containing "ton" is priced as
   * the 25-ton crane: the token "ton" of "25-ton" matches before any
   * heavier variant is tried.
   */
  lemma TonTokenSelectsFirstMobileCrane(equipmentType: string)
    requires IsSubstring("mobile crane", Lower(equipmentType))
    requires IsSubstring("ton", Lower(equipmentType))
    ensures ResolveRate(equipmentType) == RateMatch("mobile crane (25-ton)", 120000, 8000)
  {
    TonMatchesFirstTier(Lower(equipmentType));
    FirstTierReport();
  }

  /** The heavier mobile-crane tiers are reached only by descriptions without "ton". */
  lemma HeavierMobileCraneExcludesTon(equipmentType: string, vi: nat)
    requires 0 < vi
    requires IsFirstMatch(RateTable, Lower(equipmentType), 0, vi)
    ensures !IsSubstring("ton", Lower(equipmentType))
  {
    if IsSubstring("ton", Lower(equipmentType)) {
      TonMatchesFirstTier(Lower(equipmentType));
    }
  }

  lemma FiftyTonLowered()
    ensures Lower("50-ton mobile crane") == "50-ton mobile crane"
  {
  }

  lemma FiftyTonNamesMobileCrane()
    ensures IsSubstring("mobile crane", "50-ton mobile crane")
  {
    assert OccursAt("mobile crane", "50-ton mobile crane", 7);
    IsSubstringIff("mobile crane", "50-ton mobile crane");
  }

  lemma FiftyTonContainsTon()
    ensures IsSubstring("ton", "50-ton mobile crane")
  {
    assert OccursAt("ton", "50-ton mobile crane", 3);
    IsSubstringIff("ton", "50-ton mobile crane");
  }

  /** "50-ton mobile crane" is priced at the 25-ton daily rate. */
  lemma FiftyTonMobileCraneGetsTwentyFiveTonRate()
    ensures ResolveRate("50-ton mobile crane") == RateMatch("mobile crane (25-ton)", 120000, 8000)
  {
    FiftyTonLowered();
    FiftyTonNamesMobileCrane();
    FiftyTonContainsTon();
    TonTokenSelectsFirstMobileCrane("50-ton mobile crane");
  }

  /** No category name occurs in "unobtainium levitator". */
  lemma NoCategoryInUnknownText(ci: nat)
    requires ci < |RateTable|
    ensures !IsSubstring(RateTable[ci].name, "unobtainium levitator")
  {
    var s := "unobtainium levitator";
    if ci == 2 {
      MissingCharNotSubstring(RateTable[ci].name, s, 'f');
    } else {
      assert 'c' in RateTable[ci].name;
      MissingCharNotSubstring(RateTable[ci].name, s, 'c');
    }
  }

  /** An unknown description keeps the raw text as its match and gets the default rates. */
  lemma UnknownEquipmentGetsDefaultRates()
    ensures ResolveRate("unobtainium levitator")
            == RateMatch("unobtainium levitator", DefaultDailyRate, DefaultOperatorDaily)
  {
    var s := "unobtainium levitator";
    assert Lower(s) == s;
    forall ci, vi
      ensures !PairMatches(RateTable, s, ci, vi)
    {
      if 0 <= ci < |RateTable| {
        NoCategoryInUnknownText(ci);
      }
    }
  }
}

=== FILE: rounding.dfy ===
/**
 * Python's `round(x, n)` on exact values: to the nearest multiple of 1/10^n,
 * ties to the even multiple.  The tools round every reported amount to two
 * decimals, and the volume-discount percentage to one.
 */
module Rounding {

  predicate IsInteger(y: real) {
    y.Floor as real == y
  }

  /** Rounds `y` to the nearest integer, ties to the even one. */
  function RoundToInt(y: real): (n: int)
    ensures -0.5 <= n as real - y <= 0.5
    ensures IsInteger(y) ==> n as real == y
    ensures y - y.Floor as real == 0.5 ==> n % 2 == 0
  {
    var f := y.Floor;
    if y - f as real < 0.5 then f
    else if y - f as real > 0.5 then f + 1
    else if f % 2 == 0 then f else f + 1
  }

  /** Rounding to an integer never reverses the order of two values. */
  lemma RoundToIntMonotone(x: real, y: real)
    requires x <= y
    ensures RoundToInt(x) <= RoundToInt(y)
  {
    var fx, fy := x.Floor, y.Floor;
    assert fx <= fy;
    if fx == fy {
      assert x - fx as real <= y - fy as real;
    }
  }

  /** `x` is a whole number of cents. */
  predicate OnCents(x: real) {
    IsInteger(x * 100.0)
  }

  /** `reported` is a whole number of cents at most half a cent from `exact`. */
  predicate CentRounded(exact: real, reported: real) {
    OnCents(reported) && -0.005 <= reported - exact <= 0.005
  }

  /** Python's `round(x, 2)`. */
  function Round2(x: real): (r: real)
    ensures OnCents(r)
    ensures -0.005 <= r - x <= 0.005
  {
    var y := x * 100.0;
    var n := RoundToInt(y);
    var r := n as real / 100.0;
    assert r * 100.0 == n as real;
    assert (r * 100.0).Floor == n;
    assert r - x == (n as real - y) / 100.0;
    r
  }

  /** When `x` is less than half a cent from `n` cents, `round(x, 2)` is `n` cents. */
  lemma Round2Nearest(x: real, n: int)
    requires n as real - 0.5 < x * 100.0 < n as real + 0.5
    ensures Round2(x) == n as real / 100.0
  {
    var y := x * 100.0;
    var m := RoundToInt(y);
    assert -0.5 <= m as real - y <= 0.5;
    assert m == n by {
      assert -1.0 < m as real - n as real < 1.0;
    }
    assert Round2(x) == m as real / 100.0;
  }

  /** Python's `round(x, 1)`. */
  function Round1(x: real): (r: real)
    ensures IsInteger(r * 10.0)
    ensures -0.05 <= r - x <= 0.05
  {
    var y := x * 10.0;
    var n := RoundToInt(y);
    var r := n as real / 10.0;
    assert r * 10.0 == n as real;
    assert (r * 10.0).Floor == n;
    assert r - x == (n as real - y) / 10.0;
    r
  }

  /** Rounding to cents never reverses the order of two amounts. */
  lemma {:induction false} Round2Monotone(x: real, y: real)
    requires x <= y
    ensures Round2(x) <= Round2(y)
  {
    RoundToIntMonotone(x * 100.0, y * 100.0);
  }

  /** An amount already in whole cents is reported unchanged. */
  lemma Round2OnCents(x: real)
    requires OnCents(x)
    ensures Round2(x) == x
  {
  }

  /** A sum of whole-cent amounts is a whole number of cents. */
  lemma OnCentsAdd(x: real, y: real)
    requires OnCents(x) && OnCents(y)
    ensures OnCents(x + y)
  {
    var a, b := (x * 100.0).Floor, (y * 100.0).Floor;
    assert (x + y) * 100.0 == (a + b) as real;
  }
}

=== FILE: text.dfy ===
/**
 * The string primitives the pricing tools rely on: Python's `str.lower()`,
 * the substring test `needle in hay`, `str.split(sep)` and `str.split()`.
 */
module Text {

  /** Python's `str.lower()` on one character, restricted to ASCII letters. */
  function LowerChar(c: char): char {
    if 'A' <= c <= 'Z' then (c as int + 32) as char else c
  }

  predicate IsUpper(c: char) {
    'A' <= c <= 'Z'
  }

  /** Python's `str.lower()` (ASCII case mapping). */
  function Lower(s: string): (r: string)
    ensures |r| == |s|
    ensures forall i :: 0 <= i < |s| && IsUpper(s[i]) ==> r[i] as int == s[i] as int + 32
    ensures forall i :: 0 <= i < |s| && !IsUpper(s[i]) ==> r[i] == s[i]
  {
    seq(|s|, i requires 0 <= i < |s| => LowerChar(s[i]))
  }

  /** Lower-casing leaves no upper-case letter behind. */
  lemma LowerHasNoUpper(s: string)
    ensures forall i :: 0 <= i < |s| ==> !IsUpper(Lower(s)[i])
  {
  }

  /** A string without capitals is its own lower-case form. */
  lemma LowerKeepsLowerCase(s: string)
    requires forall i :: 0 <= i < |s| ==> !IsUpper(s[i])
    ensures Lower(s) == s
  {
  }

  /** Lower-casing twice is lower-casing once. */
  lemma LowerIdempotent(s: string)
    ensures Lower(Lower(s)) == Lower(s)
  {
  }

  /** `needle` occurs in `hay` starting at position `i`. */
  predicate OccursAt(needle: string, hay: string, i: int) {
    0 <= i && i + |needle| <= |hay| && hay[i..i + |needle|] == needle
  }

  /** Python's `needle in hay` for strings, scanning start positions left to right. */
  predicate IsSubstring(needle: string, hay: string)
    decreases |hay|
  {
    (|needle| <= |hay| && hay[..|needle|] == needle)
    || (|hay| > 0 && IsSubstring(needle, hay[1..]))
  }

  /** The scanning definition agrees with "occurs at some position". */
  lemma {:induction false} IsSubstringIff(needle: string, hay: string)
    ensures IsSubstring(needle, hay) <==> exists i :: OccursAt(needle, hay, i)
    decreases |hay|
  {
    if exists i :: OccursAt(needle, hay, i) {
      var i :| OccursAt(needle, hay, i);
      if i > 0 {
        assert hay[1..][i - 1..i - 1 + |needle|] == hay[i..i + |needle|];
        assert OccursAt(needle, hay[1..], i - 1);
        IsSubstringIff(needle, hay[1..]);
      }
    }
    if IsSubstring(needle, hay) {
      if |needle| <= |hay| && hay[..|needle|] == needle {
        assert OccursAt(needle, hay, 0);
      } else {
        IsSubstringIff(needle, hay[1..]);
        var j :| OccursAt(needle, hay[1..], j);
        assert hay[1..][j..j + |needle|] == hay[j + 1..j + 1 + |needle|];
        assert OccursAt(needle, hay, j + 1);
      }
    }
  }

  /** The empty string occurs in every string (`"" in s` is true in Python). */
  lemma EmptyIsSubstring(hay: string)
    ensures IsSubstring("", hay)
  {
  }

  /** Every string occurs in itself. */
  lemma SubstringOfSelf(s: string)
    ensures IsSubstring(s, s)
  {
  }

  /** Occurrence is transitive: a substring of a substring is a substring. */
  lemma SubstringTransitive(a: string, b: string, c: string)
    requires IsSubstring(a, b) && IsSubstring(b, c)
    ensures IsSubstring(a, c)
  {
    IsSubstringIff(a, b);
    IsSubstringIff(b, c);
    var i :| OccursAt(a, b, i);
    var j :| OccursAt(b, c, j);
    forall k | 0 <= k < |a|
      ensures a[k] == c[j + i + k]
    {
      assert a[k] == b[i..i + |a|][k] == b[i + k];
      assert b[i + k] == c[j..j + |b|][i + k];
    }
    assert c[j + i..j + i + |a|] == a;
    assert OccursAt(a, c, j + i);
    IsSubstringIff(a, c);
  }

  /** If `needle` uses a character that `hay` lacks, `needle` does not occur in `hay`. */
  lemma {:induction false} MissingCharNotSubstring(needle: string, hay: string, c: char)
    requires c in needle && c !in hay
    ensures !IsSubstring(needle, hay)
  {
    IsSubstringIff(needle, hay);
    forall i | 0 <= i && i + |needle| <= |hay|
      ensures !OccursAt(needle, hay, i)
    {
      var k :| 0 <= k < |needle| && needle[k] == c;
      assert hay[i..i + |needle|][k] == hay[i + k] != c;
    }
  }

  /** True when some word of `words` occurs in `s` (Python `any(w in s for w in words)`). */
  predicate AnyIn(words: seq<string>, s: string) {
    exists i :: 0 <= i < |words| && IsSubstring(words[i], s)
  }

  /** Python's `any(w in s for w in words)`, evaluated left to right. */
  function AnyOccurs(words: seq<string>, s: string): (b: bool)
    ensures b <==> AnyIn(words, s)
  {
    if |words| == 0 then false
    else IsSubstring(words[0], s) || AnyOccurs(words[1..], s)
  }

  /** Python's `s.split(sep)` for a one-character separator. */
  function SplitOn(s: string, sep: char): (parts: seq<string>)
    ensures |parts| >= 1
    ensures forall i :: 0 <= i < |parts| ==> sep !in parts[i]
    decreases |s|
  {
    if |s| == 0 then [""]
    else if s[0] == sep then [""] + SplitOn(s[1..], sep)
    else
      var rest := SplitOn(s[1..], sep);
      [[s[0]] + rest[0]] + rest[1..]
  }

  /** The first piece of a split is a prefix of the string, so it occurs wherever the string does. */
  lemma {:induction false} SplitOnFirstIsPrefix(s: string, sep: char)
    ensures var first := SplitOn(s, sep)[0]; |first| <= |s| && s[..|first|] == first
    decreases |s|
  {
    if |s| > 0 && s[0] != sep {
      SplitOnFirstIsPrefix(s[1..], sep);
      var rest := SplitOn(s[1..], sep);
      assert SplitOn(s, sep)[0] == [s[0]] + rest[0];
      assert s[..1 + |rest[0]|] == [s[0]] + s[1..][..|rest[0]|];
    }
  }

  /** Python's `sep.join(parts)`. */
  function JoinWith(parts: seq<string>, sep: char): string
  {
    if |parts| == 0 then ""
    else if |parts| == 1 then parts[0]
    else parts[0] + [sep] + JoinWith(parts[1..], sep)
  }

  /** Splitting loses nothing: joining the pieces back gives the original string. */
  lemma {:induction false} JoinSplit(s: string, sep: char)
    ensures JoinWith(SplitOn(s, sep), sep) == s
    decreases |s|
  {
    if |s| == 0 {
    } else if s[0] == sep {
      JoinSplit(s[1..], sep);
      assert s == [sep] + s[1..];
    } else {
      var rest := SplitOn(s[1..], sep);
      JoinSplit(s[1..], sep);
      var parts := SplitOn(s, sep);
      assert parts == [[s[0]] + rest[0]] + rest[1..];
      if |rest| == 1 {
        assert JoinWith(rest, sep) == rest[0];
        assert s == [s[0]] + s[1..];
      } else {
        assert parts[1..] == rest[1..];
        assert JoinWith(rest, sep) == rest[0] + [sep] + JoinWith(rest[1..], sep);
        assert JoinWith(parts, sep) == [s[0]] + rest[0] + [sep] + JoinWith(rest[1..], sep);
        assert s == [s[0]] + s[1..];
      }
    }
  }

  /** The characters Python's `str.isspace()` accepts, i.e. the separators of `str.split()`. */
  predicate IsSpace(c: char) {
    var n := c as int;
    (0x09 <= n <= 0x0D) || (0x1C <= n <= 0x20) || n == 0x85 || n == 0xA0
    || n == 0x1680 || (0x2000 <= n <= 0x200A) || n == 0x2028 || n == 0x2029
    || n == 0x202F || n == 0x205F || n == 0x3000
  }

  predicate NoSpace(w: string) {
    forall k :: 0 <= k < |w| ==> !IsSpace(w[k])
  }

  /** End (exclusive) of the run of non-space characters that starts at `i`. */
  function WordEnd(s: string, i: nat): (j: nat)
    requires i <= |s|
    ensures i <= j <= |s|
    ensures NoSpace(s[i..j])
    ensures j == |s| || IsSpace(s[j])
    decreases |s| - i
  {
    if i < |s| && !IsSpace(s[i]) then
      var j := WordEnd(s, i + 1);
      assert s[i..j] == [s[i]] + s[i + 1..j];
      j
    else i
  }

  /** Python's `s[i:].split()`: the maximal runs of non-space characters, in order. */
  function WordsFrom(s: string, i: nat): (ws: seq<string>)
    requires i <= |s|
    ensures forall k :: 0 <= k < |ws| ==> |ws[k]| > 0 && NoSpace(ws[k])
    decreases |s| - i
  {
    if i == |s| then []
    else if IsSpace(s[i]) then WordsFrom(s, i + 1)
    else
      var j := WordEnd(s, i);
      [s[i..j]] + WordsFrom(s, j)
  }

  /** Python's `s.split()` with no argument. */
  function Words(s: string): (ws: seq<string>)
    ensures forall k :: 0 <= k < |ws| ==> |ws[k]| > 0 && NoSpace(ws[k])
  {
    WordsFrom(s, 0)
  }

  /** Every word produced by `WordsFrom(s, i)` occurs in `s`. */
  lemma {:induction false} WordsFromAreSubstrings(s: string, i: nat)
    requires i <= |s|
    ensures forall k :: 0 <= k < |WordsFrom(s, i)| ==> IsSubstring(WordsFrom(s, i)[k], s)
    decreases |s| - i
  {
    if i == |s| {
    } else if IsSpace(s[i]) {
      WordsFromAreSubstrings(s, i + 1);
    } else {
      var j := WordEnd(s, i);
      WordsFromAreSubstrings(s, j);
      assert OccursAt(s[i..j], s, i);
      IsSubstringIff(s[i..j], s);
    }
  }

  /** A non-empty string without whitespace splits into exactly itself. */
  lemma {:induction false} WordsOfSingleWord(s: string)
    requires |s| > 0 && NoSpace(s)
    ensures Words(s) == [s]
  {
    var j := WordEnd(s, 0);
    assert s[0] == s[0..j][0];
    assert s[0..j] == s;
    assert WordsFrom(s, j) == [];
  }

  /** Whitespace-only (or empty) text has no words. */
  lemma {:induction false} WordsOfBlank(s: string, i: nat)
    requires i <= |s|
    requires forall k :: i <= k < |s| ==> IsSpace(s[k])
    ensures WordsFrom(s, i) == []
    decreases |s| - i
  {
    if i < |s| {
      WordsOfBlank(s, i + 1);
    }
  }

  /** `s` with every whitespace character removed. */
  function RemoveSpaces(s: string): (r: string)
    ensures NoSpace(r)
  {
    if |s| == 0 then ""
    else (if IsSpace(s[0]) then "" else [s[0]]) + RemoveSpaces(s[1..])
  }

  /** Python's `"".join(ws)`. */
  function Concat(ws: seq<string>): string {
    if |ws| == 0 then "" else ws[0] + Concat(ws[1..])
  }

  lemma {:induction false} RemoveSpacesConcat(a: string, b: string)
    ensures RemoveSpaces(a + b) == RemoveSpaces(a) + RemoveSpaces(b)
  {
    if |a| == 0 {
      assert a + b == b;
    } else {
      assert (a + b)[0] == a[0];
      assert (a + b)[1..] == a[1..] + b;
      RemoveSpacesConcat(a[1..], b);
    }
  }

  lemma {:induction false} RemoveSpacesOfWord(w: string)
    requires NoSpace(w)
    ensures RemoveSpaces(w) == w
  {
    if |w| > 0 {
      RemoveSpacesOfWord(w[1..]);
      assert w == [w[0]] + w[1..];
    }
  }

  /** Nothing but whitespace is dropped: the words of `s[i..]`, glued together, are its non-space characters. */
  lemma {:induction false} WordsFromJoin(s: string, i: nat)
    requires i <= |s|
    ensures Concat(WordsFrom(s, i)) == RemoveSpaces(s[i..])
    decreases |s| - i
  {
    if i == |s| {
      assert s[i..] == "";
    } else if IsSpace(s[i]) {
      WordsFromJoin(s, i + 1);
      assert s[i..][1..] == s[i + 1..];
    } else {
      var j := WordEnd(s, i);
      var w := s[i..j];
      var rest := WordsFrom(s, j);
      WordsFromJoin(s, j);
      assert ([w] + rest)[1..] == rest;
      assert s[i..] == w + s[j..];
      RemoveSpacesConcat(w, s[j..]);
      RemoveSpacesOfWord(w);
    }
  }

  /** Where the words of `WordsFrom(s, i)` start in `s`. */
  function WordStartsFrom(s: string, i: nat): (ps: seq<nat>)
    requires i <= |s|
    decreases |s| - i
  {
    if i == |s| then []
    else if IsSpace(s[i]) then WordStartsFrom(s, i + 1)
    else [i] + WordStartsFrom(s, WordEnd(s, i))
  }

  /**
   * Word `w` sits at position `p` of `s`, at or after `lo`: it starts at `lo` or right after
   * whitespace, and it runs up to whitespace or the end of `s`.
   */
  predicate WordSlot(s: string, w: string, p: int, lo: int) {
    && lo <= p && OccursAt(w, s, p)
    && (p == lo || (p > 0 && IsSpace(s[p - 1])))
    && (p + |w| == |s| || IsSpace(s[p + |w|]))
  }

  /** The layout of the words in `s[i..]`: each in its slot, each next one strictly after the whitespace ending the last. */
  predicate LaidOut(s: string, i: nat)
    requires i <= |s|
  {
    var ws, ps := WordsFrom(s, i), WordStartsFrom(s, i);
    && |ps| == |ws|
    && (forall k :: 0 <= k < |ws| ==> WordSlot(s, ws[k], ps[k], i))
    && (forall k :: 0 <= k < |ws| - 1 ==> ps[k] + |ws[k]| < ps[k + 1])
  }

  /** Skipping a leading space keeps the layout. */
  lemma LaidOutAfterSpace(s: string, i: nat)
    requires i < |s| && IsSpace(s[i]) && LaidOut(s, i + 1)
    ensures LaidOut(s, i)
  {
    var ws, ps := WordsFrom(s, i), WordStartsFrom(s, i);
    forall k | 0 <= k < |ws|
      ensures WordSlot(s, ws[k], ps[k], i)
    {
      assert WordSlot(s, ws[k], ps[k], i + 1);
    }
  }

  /** Slots of a first word at `i` and of later words after `j`, joined into one layout. */
  lemma ConsSlots(s: string, i: nat, w: string, rest: seq<string>, starts: seq<nat>)
    requires |starts| == |rest| && WordSlot(s, w, i, i) && |w| > 0
    requires forall k :: 0 <= k < |rest| ==> i + |w| < starts[k] && WordSlot(s, rest[k], starts[k], i + |w|)
    requires forall k :: 0 <= k < |rest| - 1 ==> starts[k] + |rest[k]| < starts[k + 1]
    ensures forall k :: 0 <= k < |rest| + 1 ==> WordSlot(s, ([w] + rest)[k], ([i] + starts)[k], i)
    ensures forall k :: 0 <= k < |rest| ==> ([i] + starts)[k] + |([w] + rest)[k]| < ([i] + starts)[k + 1]
  {
    var ws, ps := [w] + rest, [i] + starts;
    forall k | 0 <= k < |ws|
      ensures WordSlot(s, ws[k], ps[k], i)
    {
      if k > 0 {
        assert ws[k] == rest[k - 1] && ps[k] == starts[k - 1];
      }
    }
    forall k | 0 <= k < |rest|
      ensures ps[k] + |ws[k]| < ps[k + 1]
    {
      if k > 0 {
        assert ws[k] == rest[k - 1] && ps[k] == starts[k - 1] && ps[k + 1] == starts[k];
      }
    }
  }

  /** A word followed by a laid-out rest is laid out. */
  lemma LaidOutAfterWord(s: string, i: nat)
    requires i < |s| && !IsSpace(s[i]) && LaidOut(s, WordEnd(s, i))
    ensures LaidOut(s, i)
  {
    var j := WordEnd(s, i);
    var w := s[i..j];
    var rest, restStarts := WordsFrom(s, j), WordStartsFrom(s, j);
    assert WordsFrom(s, i) == [w] + rest && WordStartsFrom(s, i) == [i] + restStarts;
    forall k | 0 <= k < |rest|
      ensures j < restStarts[k] && WordSlot(s, rest[k], restStarts[k], j)
    {
      assert WordSlot(s, rest[k], restStarts[k], j);
      assert s[restStarts[k]] == rest[k][0];
    }
    assert OccursAt(w, s, i);
    ConsSlots(s, i, w, rest, restStarts);
  }

  /** Every suffix of `s` has its words laid out. */
  lemma {:induction false} WordsFromLaidOut(s: string, i: nat)
    requires i <= |s|
    ensures LaidOut(s, i)
    decreases |s| - i
  {
    if i == |s| {
    } else if IsSpace(s[i]) {
      WordsFromLaidOut(s, i + 1);
      LaidOutAfterSpace(s, i);
    } else {
      WordsFromLaidOut(s, WordEnd(s, i));
      LaidOutAfterWord(s, i);
    }
  }

  /** `s.split()` glued back together is `s` without its whitespace. */
  lemma WordsJoin(s: string)
    ensures Concat(Words(s)) == RemoveSpaces(s)
  {
    WordsFromJoin(s, 0);
    assert s[0..] == s;
  }

  /** The layout of `s.split()`: word k starts at `WordStartsFrom(s, 0)[k]`, bounded by whitespace or the ends of `s`, in order. */
  lemma WordsAreMaximalRuns(s: string)
    ensures var ws, ps := Words(s), WordStartsFrom(s, 0);
            && |ps| == |ws|
            && (forall k :: 0 <= k < |ws| ==> WordSlot(s, ws[k], ps[k], 0))
            && (forall k :: 0 <= k < |ws| - 1 ==> ps[k] + |ws[k]| < ps[k + 1])
  {
    WordsFromLaidOut(s, 0);
  }
}

=== FILE: wrappers.dfy ===
/** Small failure-carrying datatypes shared by the pricing model. */
module Wrappers {

  /** A value that may be absent: a missing dictionary key, or no match. */
  datatype Option<+T> = None | Some(value: T) {

    /** The carried value, or `default` when absent (Python's `dict.get(key, default)`). */
    function GetOr(default: T): T {
      match this
      case Some(v) => v
      case None => default
    }
  }

  /** Either a computed value or the exception the source would raise. */
  datatype Result<+R, +E> = Success(value: R) | Failure(error: E)
}
